=== FILE: README.md ===
# Wedding seating map: a Dafny model of the data path

The wedding seating tool reads a guest spreadsheet exported as CSV. It groups the guests by
their assigned table and lets the user search them by name. It can also draw the tables and
guests as a graph, with "together" and "apart" links between guests who asked to sit with,
or away from, someone.

This project models that data path as pure functions and proves what each step guarantees.
The steps are:

- **Upload** (`CsvImport`). The file-name extension check comes first. The text is then
  split into lines, the first line becomes the trimmed headers, and each later line becomes a
  header-to-cell record. Any error is shown on screen instead.
- **Grouping** (`Grouping`). `processarDadosConvidados` folds the records into a map from
  table number to guest records. Each guest record holds a name and the directives
  "Junto com: …" / "Separado de: …".
- **Search** (`Search`). Per table it keeps the guests whose lower-cased name contains the
  lower-cased term, and it keeps only the tables where someone matches.
- **Graph projection and styling** (`SeatGraph`). There is one node per table and one per
  guest. There is a "mesa" link from each table to each of its guests. There is a typed link
  for each directive whose target names an existing guest. Link distance, stroke, dash and
  node fill depend on the link type.

The JavaScript built-ins the code relies on are modelled in their own modules:

- `JsString`: `split` with a string separator, `indexOf`/`includes`, `trim`, `toLowerCase`
  and `startsWith`.
- `JsNumber`: `parseInt` without a radix, including the `0x` hexadecimal case, and `String`
  of an integer, which is how a table number becomes an object key.

`Seating` holds the guest record, the seating map `map<int, seq<Guest>>`, and sums over the
map that do not depend on key order.

JavaScript object key order is not modelled as such. The graph projection takes an explicit
enumeration `order` of the map's keys (`Seating.Enumerates`). Every count and membership
result is proved for any such enumeration.

Two places where the model deliberately goes its own way:

- **Missing "Guest" column.** When no header is "Guest", a row with a parseable table number
  makes `linha.Guest.trim()` throw a TypeError. The upload's own `catch` block catches it and
  shows its message, and the seating stays as it was. The model treats this as a second error
  path of the upload (`GuestColumnMissing`) rather than as a precondition. The grouping itself
  requires that every row with a parseable table number has a "Guest" cell
  (`Grouping.AllAdmissible`). `CsvImport.AdmissibleRows` states exactly when an upload
  meets that requirement.
- **Directive kind.** The kind of a directive is read from the whole directive text: it is
  together whenever "Junto com" occurs anywhere in it. So an apart directive whose target
  name itself contains "Junto com" is drawn as a together link
  (`SeatGraph.ApartReadAsTogether`). This is the code's behaviour and the model keeps it.

## Model

| member | source | states |
|---|---|---|
| Grouping.Group | wedding-web-app/app/page.tsx:26-66 | a table is in the result exactly when some row's "Assigned Table No" parses to that number, including tables whose rows are all spare seats |
| Grouping.EffectOf | wedding-web-app/app/page.tsx:29-58 | a row does nothing when its table number is NaN; it opens its table when the number parses; it also seats a guest, its trimmed name with its directives, exactly when the name does not start with "Spare Seat" |
| Grouping.Apply | wedding-web-app/app/page.tsx:30-60 | one row's step: a skipped row changes nothing; otherwise the row's table becomes a key, with an empty list if it was new, a seated guest is appended to the end of that list, and every other table keeps its list |
| Grouping.Fold | wedding-web-app/app/page.tsx:27-61 | the reduce from the empty object creates a table key exactly when some row touches that table |
| Grouping.FoldTables | wedding-web-app/app/page.tsx:27-61 | each table of the fold lists the guests seated there, in row order |
| Grouping.FoldTotal | wedding-web-app/app/page.tsx:27-61 | the fold holds one guest record per seating row |
| Grouping.GroupTables | wedding-web-app/app/page.tsx:27-61 | within a table the guests are exactly those of the rows seated there, in the same relative order as their rows |
| Grouping.GroupTotal | wedding-web-app/app/page.tsx:27-61 | the guest records across all tables number exactly the rows with a parseable table number and a name that is not a spare seat |
| Grouping.UnparsedRowIgnored | wedding-web-app/app/page.tsx:29-30 | inserting a row whose table number is NaN anywhere among the rows changes neither the tables nor their guests |
| Grouping.SpareRowOpensTable | wedding-web-app/app/page.tsx:32-37 | inserting a spare-seat row anywhere adds its table, with an empty list if it was new, and changes nothing else |
| Grouping.SpareOnlyTable | wedding-web-app/app/page.tsx:32-37 | a table named by some row but seating no one is present with an empty guest list |
| Grouping.FoldSkip | wedding-web-app/app/page.tsx:30 | a skipped row leaves the reduce's result unchanged wherever it stands |
| Grouping.FoldOpen | wedding-web-app/app/page.tsx:32-34 | a row that only opens its table adds that key with an empty list if absent, wherever it stands |
| Grouping.Relationships | wedding-web-app/app/page.tsx:39-52 | a row yields at most six directives, each a "Junto com: " or "Separado de: " prefix followed by a non-empty value |
| Grouping.Directive | wedding-web-app/app/page.tsx:43-50 | a column contributes at most one directive, and one exactly when it is present and non-blank after trimming; that directive is the prefix followed by the trimmed cell |
| Grouping.RelationshipsColumns | wedding-web-app/app/page.tsx:42-52 | for every row, the directives are the contributions of Together1, Apart1, Together2, Apart2, Together3 and Apart3, concatenated in that order |
| CsvImport.IsCsvName | wedding-web-app/app/page.tsx:74-76 | a file name is accepted exactly when its last three characters spell "csv" in any letter case and are either the whole name or follow a dot |
| CsvImport.Extension | wedding-web-app/app/page.tsx:74 | the extension is the lower-cased suffix of the name that holds no dot and is either the whole name or follows a dot, that is, the text after the last dot |
| CsvImport.Record | wedding-web-app/app/page.tsx:84-87 | the record of a data line has exactly the trimmed headers as its keys |
| CsvImport.RecordCell | wedding-web-app/app/page.tsx:84-87 | a header that no later header repeats maps to the trimmed cell at its index, or to "" past the end of the line; so a repeated header keeps the last one |
| CsvImport.ParseCsv | wedding-web-app/app/page.tsx:78-88 | the number of records is the number of lines minus one |
| CsvImport.ParseCsvKeys | wedding-web-app/app/page.tsx:79-87 | every record's keys are exactly the trimmed header cells of the first line |
| CsvImport.ParseRender | wedding-web-app/app/page.tsx:78-88 | reading back a rendered table of plain cells with distinct headers gives one record per row, each header holding that row's cell |
| CsvImport.Upload | wedding-web-app/app/page.tsx:68-99 | no file leaves the screen as it was; a name that is not a CSV name shows the unsupported-format error and keeps the seating |
| CsvImport.UploadOutcome | wedding-web-app/app/page.tsx:72-99 | an upload replaces the seating with the grouped records and clears the error exactly when the name is a CSV name and the rows are admissible; otherwise the seating stays and an error is shown, the format error exactly for a non-CSV name |
| CsvImport.AdmissibleRows | wedding-web-app/app/page.tsx:29-36 | the grouping can read every guest name exactly when a header is "Guest" or no row's table number parses |
| Search.Search | wedding-web-app/app/page.tsx:102-113 | every table of the result is a table of the input with a non-empty list, namely the guests that match the term |
| Search.Matches | wedding-web-app/app/page.tsx:104-106 | a guest matches exactly when the lower-cased term occurs at some index of the lower-cased name, so a match is never longer than the name |
| Search.Filter | wedding-web-app/app/page.tsx:104-106 | the filter keeps exactly the accepted guests and never lengthens the list |
| Search.FilterMultiset | wedding-web-app/app/page.tsx:104-106 | each accepted guest is kept as many times as it occurs, and no other guest is kept |
| Search.FilterSubsequence | wedding-web-app/app/page.tsx:104-106 | the survivors keep their original relative order |
| Search.SearchKeys | wedding-web-app/app/page.tsx:107-109 | a table survives exactly when one of its guests matches |
| Search.SearchSubsequence | wedding-web-app/app/page.tsx:102-113 | each surviving table lists a non-empty, order-preserving selection of its matching guests, records unchanged |
| Search.EmptyTerm | wedding-web-app/app/page.tsx:102-113 | an empty term keeps every non-empty table whole and drops the empty ones |
| Search.SearchIdempotent | wedding-web-app/app/page.tsx:102-113 | searching a search result again with the same term changes nothing |
| Search.SearchIgnoresCase | wedding-web-app/app/page.tsx:105 | lower-casing the term first does not change the result |
| Search.SearchTotal | wedding-web-app/app/page.tsx:102-113 | the result holds, over all tables, exactly the number of matching guests |
| SeatGraph.Project | wedding-web-app/app/MapaAssentosGrafo.tsx:19-68 | the graph has one node per table plus one per guest record, and one mesa link per guest record |
| SeatGraph.ProjectDirectiveLinks | wedding-web-app/app/MapaAssentosGrafo.tsx:47-65 | every directive whose target names a guest anywhere in the map yields a link from its guest to that guest, typed by the directive; every link that is not a mesa link is such a link |
| SeatGraph.ProjectNodes | wedding-web-app/app/MapaAssentosGrafo.tsx:22-37 | there is a node for every table and for every guest record naming its table, every node is one of these, and the node count is the number of tables plus the number of guests |
| SeatGraph.NodesAlong | wedding-web-app/app/MapaAssentosGrafo.tsx:22-37 | walking the tables gives as many nodes as tables plus guests, of which as many table nodes as tables |
| SeatGraph.ProjectMesaLinks | wedding-web-app/app/MapaAssentosGrafo.tsx:40-44 | every guest record yields a link from its table's node to its own, the mesa links number the guests, and there are no other mesa links |
| SeatGraph.TableLinks | wedding-web-app/app/MapaAssentosGrafo.tsx:31-66 | a table has as many links as guests plus resolving directives, and as many mesa links as guests |
| SeatGraph.KindOf | wedding-web-app/app/MapaAssentosGrafo.tsx:48-50 | a directive's link is together exactly when "Junto com" occurs in it, and apart otherwise |
| SeatGraph.ApartReadAsTogether | wedding-web-app/app/MapaAssentosGrafo.tsx:48-50 | an apart directive whose value contains "Junto com" is typed together |
| SeatGraph.Find | wedding-web-app/app/MapaAssentosGrafo.tsx:54-56 | the lookup finds a guest exactly when some guest carries the name, and what it finds carries that name |
| SeatGraph.DirectiveLink | wedding-web-app/app/MapaAssentosGrafo.tsx:51-65 | a directive yields a link exactly when its target resolves, from the guest to the target, typed by the directive |
| SeatGraph.DirectiveLinkExists | wedding-web-app/app/MapaAssentosGrafo.tsx:51-65 | a directive yields one link exactly when its target is the name of a guest at any table, and none otherwise |
| SeatGraph.Target | wedding-web-app/app/MapaAssentosGrafo.tsx:51 | a directive has a target exactly when it contains ": "; the target is the text from after the first ": " up to the next one or the end, so it holds no ": " |
| SeatGraph.TargetOfDirective | wedding-web-app/app/MapaAssentosGrafo.tsx:51 | the target of a directive the grouping wrote is its value, provided the value holds no ": " |
| SeatGraph.RelationshipLinks | wedding-web-app/app/MapaAssentosGrafo.tsx:47-66 | a guest has as many directive links as resolving directives, all from that guest and none of them a mesa link |
| SeatGraph.RelationshipLinksContents | wedding-web-app/app/MapaAssentosGrafo.tsx:47-65 | a link is among a guest's directive links exactly when some directive of the guest resolves and the link goes from the guest to the named guest with the directive's kind |
| SeatGraph.ProjectLinkCount | wedding-web-app/app/MapaAssentosGrafo.tsx:40-65 | the link count is the number of guests plus the number of directives whose target names a guest in the map |
| SeatGraph.TableIdInjective | wedding-web-app/app/MapaAssentosGrafo.tsx:25 | distinct tables get distinct node ids |
| SeatGraph.LinkDistanceStyling | wedding-web-app/app/MapaAssentosGrafo.tsx:78-86 | link distance is 50 for together, 300 for apart and 100 for mesa links |
| SeatGraph.StrokeStyling | wedding-web-app/app/MapaAssentosGrafo.tsx:99-106 | stroke is cyan, red or black respectively, and only apart links are dashed |
| SeatGraph.NodeFillStyling | wedding-web-app/app/MapaAssentosGrafo.tsx:115 | table nodes are filled blue and guest nodes #ddd |
| Seating.FlattenEnumeration | wedding-web-app/app/MapaAssentosGrafo.tsx:54-55 | flattening the map's values holds exactly the guests of the map and has one entry per guest record |
| Seating.SumAlongEnumeration | wedding-web-app/app/MapaAssentosGrafo.tsx:22 | a sum over the tables walked in any enumeration of the keys equals the order-free sum |
| JsString.Split | wedding-web-app/app/page.tsx:78-82 | a split yields at least one part, and joining the parts with the separator gives the text back |
| JsString.SplitAvoids | wedding-web-app/app/page.tsx:78-82 | no part of a split holds the separator |
| JsString.SplitJoin | wedding-web-app/app/page.tsx:78-82 | splitting on a one-character separator undoes a join of parts free of that character |
| JsString.SplitLastChar | wedding-web-app/app/page.tsx:74 | the last piece of a split on a character is the suffix after that character's last occurrence, or the whole text |
| JsString.Trim | wedding-web-app/app/page.tsx:36 | trim never lengthens and leaves no white space at either end |
| JsString.TrimSpec | wedding-web-app/app/page.tsx:36 | the trimmed text is a slice of the original with only white space around it |
| JsString.TrimIdempotent | wedding-web-app/app/page.tsx:56 | trimming an already trimmed cell changes nothing |
| JsString.ToLower | wedding-web-app/app/page.tsx:105 | lower-casing keeps the length, turns each upper-case letter into its lower-case letter (code point plus 32) and keeps every other character |
| JsString.ToLowerIdempotent | wedding-web-app/app/page.tsx:105 | lower-casing twice is lower-casing once |
| JsString.Contains | wedding-web-app/app/page.tsx:105 | includes holds exactly when the pattern occurs at some index |
| JsString.FindFirst | wedding-web-app/app/MapaAssentosGrafo.tsx:51 | the first index at which the pattern occurs, or none when it never occurs |
| JsNumber.ParseInt | wedding-web-app/app/page.tsx:29-30 | parseInt gives a number exactly when, after the leading white space, the optional sign and a 0x prefix, a digit follows; a negative result needs a minus sign |
| JsNumber.ParseIntRoundTrip | wedding-web-app/app/page.tsx:29 | parseInt reads back the decimal text of any integer |
| JsNumber.ParseIntOfString | wedding-web-app/app/page.tsx:29 | parseInt reads the integer's decimal text and ignores a tail that does not extend the digits |
| JsNumber.ParseIntOfDigits | wedding-web-app/app/page.tsx:29 | any run of decimal digits, leading zeros included, followed by a non-digit reads as its value, so "007" reads as 7 |
| JsNumber.ParseIntOfNegDigits | wedding-web-app/app/page.tsx:29 | the same digits after a minus sign read as the negated value, so "-01" reads as -1 |
| JsNumber.ParseIntOfPlusDigits | wedding-web-app/app/page.tsx:29 | the same digits after a plus sign read as their value, so "+5" reads as 5 |
| JsNumber.ParseIntSkipsSpace | wedding-web-app/app/page.tsx:29 | leading white space never changes what parseInt reads |
| JsNumber.ParseIntHexPrefix | wedding-web-app/app/page.tsx:29 | without a radix, "0x10" reads as sixteen |
| JsNumber.ParseIntHexEmpty | wedding-web-app/app/page.tsx:29-30 | "0x" with no hexadecimal digit reads as NaN |
| JsNumber.ParseIntOfWord | wedding-web-app/app/page.tsx:29-30 | text starting with a letter, such as "Mesa 1", reads as NaN, so the row is skipped |
| JsNumber.IntToString | wedding-web-app/app/MapaAssentosGrafo.tsx:22-26 | the key text of a table number is non-empty and starts with a minus sign exactly for negative numbers |

## Left out

- React state, hooks and rendering (cards, tooltips, badges, tabs, the alert). These are UI with no data behaviour. The upload's effect on the screen is modelled as the `Screen` value it produces.
- The asynchronous `arquivo.text()` read and its possible failure. The file's text is an input.
- The file picker's `accept` filter. It is a browser hint, and the extension check is modelled.
- `console.log` and `console.error`. They are logging only.
- The d3 force simulation, charge and center forces, tick, drag, zoom and window-size layout. These are third-party physics and floating-point DOM work. Only the link-distance, stroke, dash and fill choices are modelled.
- JavaScript object key order. The graph takes an explicit enumeration of the keys, and every result holds for any enumeration. Search results are compared as maps.
- A "__proto__" header. Assigning it on a fresh object literal runs the prototype setter, so it never becomes an own key. The model treats it as an ordinary key, which `CsvImport.Record` states. No column the tool reads has that name.
- Duplicate node ids (two guests with one name) reach d3 as they are. The model makes no claim about how d3 resolves them.
- JsNumber.ParseIntRoundTrip: numbers are exact integers. The rounding of `parseInt` results beyond 2^53, and the exponent notation of `String` for such numbers, are not modelled.
- JsString.ToLower: maps only ASCII A-Z and the Latin-1 capitals. Other Unicode case mappings, including length-changing ones, are not modelled.
- CsvImport.Message: the TypeError text for a missing "Guest" column is the message of one JavaScript engine. Other engines word it differently. The upload is modelled with the error value (`Option<UploadError>`), and `ErrorText` gives the displayed string.
- Grouping.Group: requires every row with a parseable table number to have a "Guest" cell. The throwing case is modelled one level up, as the upload's `GuestColumnMissing` error.

=== FILE: csv_import.dfy ===
/**
 The upload handler: the extension check, the line-by-line CSV reading into one
 record per data line, and the state the screen is left in (the seating map and
 the error message) after a file is chosen.
 */
module CsvImport {

  import opened Options
  import opened JsString
  import opened Seating
  import opened Grouping

  /** `name.split(".").pop().toLowerCase()`: the text after the last dot, lower-cased,
      or the whole name when it has no dot. */
  function Extension(name: string): (r: string)
    ensures |r| <= |name| && '.' !in name[|name| - |r|..]
    ensures |r| == |name| || name[|name| - |r| - 1] == '.'
    ensures r == ToLower(name[|name| - |r|..])
  {
    var parts := Split(name, ".");
    LastDotPiece(name, parts, parts[|parts| - 1]);
    ToLower(parts[|parts| - 1])
  }

  /** A name is accepted exactly when its last three characters spell "csv" in any
      letter case and are either the whole name or preceded by a dot. */
  function IsCsvName(name: string): (b: bool)
    ensures b <==> CsvTail(name)
  {
    var e := Extension(name);
    CsvPiece(name, name[|name| - |e|..], |e| < |name|);
    e == "csv"
  }

  lemma LastDotPiece(name: string, parts: seq<string>, p: string)
    requires parts == Split(name, ".") && p == parts[|parts| - 1]
    ensures DotPiece(name, p, |parts| > 1)
  {
    SplitLastChar(name, '.', parts, p);
  }

  /** The last three characters of `name` lower-case to "csv" and are the whole
      name or follow a dot. */
  predicate CsvTail(name: string) {
    && |name| >= 3
    && ToLower(name[|name| - 3..]) == "csv"
    && (|name| == 3 || name[|name| - 4] == '.')
  }

  /** `p` is a dot-free suffix of `name` that follows a dot (`cut`) or is all of it. */
  predicate DotPiece(name: string, p: string, cut: bool) {
    && |p| <= |name| && p == name[|name| - |p|..] && '.' !in p
    && (cut ==> |p| + 1 <= |name| && name[|name| - |p| - 1] == '.')
    && (!cut ==> p == name)
  }

  /** The last piece of a name lower-cases to "csv" exactly when the name has a CSV tail. */
  lemma CsvPiece(name: string, p: string, cut: bool)
    requires DotPiece(name, p, cut)
    ensures ToLower(p) == "csv" <==> CsvTail(name)
  {
    if CsvTail(name) {
      CsvTailIsLastPiece(name, p, cut);
    }
  }

  lemma CsvTailIsLastPiece(name: string, p: string, cut: bool)
    requires DotPiece(name, p, cut) && CsvTail(name)
    ensures p == name[|name| - 3..]
  {
    var n := |name|;
    var tail := name[n - 3..];
    forall k | 0 <= k < 3 ensures tail[k] != '.' {
      assert ToLower(tail)[k] == "csv"[k];
    }
  }

  /** The header cells of the first line, each trimmed. */
  function Headers(lines: seq<string>): (hs: seq<string>)
    requires |lines| > 0
  {
    var cells := Split(lines[0], ",");
    seq(|cells|, j requires 0 <= j < |cells| => Trim(cells[j]))
  }

  /** `valores[index]?.trim() || ""`: the trimmed cell, or empty past the end of the line. */
  function Cell(values: seq<string>, j: nat): string {
    if j < |values| then Trim(values[j]) else ""
  }

  /** The cell under each header: column `j` of the line for header `j`. */
  function Cells(headers: seq<string>, values: seq<string>): (cells: seq<string>)
    ensures |cells| == |headers|
    ensures forall j :: 0 <= j < |headers| ==> cells[j] == Cell(values, j)
  {
    seq(|headers|, j requires 0 <= j < |headers| => Cell(values, j))
  }

  /** The object the reduce over the first `n` headers builds: each key in turn is
      assigned its cell, so a repeated key keeps the later cell. */
  function Assign(keys: seq<string>, cells: seq<string>, n: nat): Row
    requires n <= |keys| == |cells|
  {
    if n == 0 then map[] else Assign(keys, cells, n - 1)[keys[n - 1] := cells[n - 1]]
  }

  /** The record for one data line: its keys are exactly the headers. */
  function Record(headers: seq<string>, values: seq<string>): (r: Row)
    ensures r.Keys == set j | 0 <= j < |headers| :: headers[j]
  {
    var cells := Cells(headers, values);
    AssignKeys(headers, cells, |headers|);
    Assign(headers, cells, |headers|)
  }

  lemma {:induction false} AssignKeys(keys: seq<string>, cells: seq<string>, n: nat)
    requires n <= |keys| == |cells|
    ensures Assign(keys, cells, n).Keys == set j | 0 <= j < n :: keys[j]
    decreases n
  {
    if n > 0 {
      AssignKeys(keys, cells, n - 1);
      var prev := set j | 0 <= j < n - 1 :: keys[j];
      var all := set j | 0 <= j < n :: keys[j];
      assert all == prev + {keys[n - 1]} by {
        forall h | h in all ensures h in prev + {keys[n - 1]} {
          var j :| 0 <= j < n && keys[j] == h;
          if j < n - 1 {
            assert h in prev;
          }
        }
      }
    }
  }

  /** A key that no later position repeats holds its own cell. */
  lemma {:induction false} AssignLookup(keys: seq<string>, cells: seq<string>, n: nat, j: nat)
    requires j < n <= |keys| == |cells|
    requires forall k :: j < k < n ==> keys[k] != keys[j]
    ensures keys[j] in Assign(keys, cells, n)
    ensures Assign(keys, cells, n)[keys[j]] == cells[j]
    decreases n
  {
    if j < n - 1 {
      AssignLookup(keys, cells, n - 1, j);
    }
  }

  /** `texto.split("\n")`, the headers of the first line, and one record per later line. */
  function ParseCsv(text: string): (rows: seq<Row>)
    ensures |rows| == |Split(text, "\n")| - 1
  {
    var lines := Split(text, "\n");
    var headers := Headers(lines);
    seq(|lines| - 1, i requires 0 <= i < |lines| - 1 => Record(headers, Split(lines[i + 1], ",")))
  }

  /** Every record has exactly the header cells of the first line as its keys. */
  lemma ParseCsvKeys(text: string)
    ensures var headers := Headers(Split(text, "\n"));
      forall i :: 0 <= i < |ParseCsv(text)| ==>
        ParseCsv(text)[i].Keys == set j | 0 <= j < |headers| :: headers[j]
  {
    var lines := Split(text, "\n");
    var headers := Headers(lines);
    forall i | 0 <= i < |ParseCsv(text)|
      ensures ParseCsv(text)[i].Keys == set j | 0 <= j < |headers| :: headers[j]
    {
      assert ParseCsv(text)[i] == Record(headers, Split(lines[i + 1], ","));
    }
  }

  /** The lines of a spreadsheet export: the header line, then one line per data row,
      cells joined by commas. */
  function RenderLines(headers: seq<string>, table: seq<seq<string>>): (lines: seq<string>)
    ensures |lines| == |table| + 1
    ensures lines[0] == Join(headers, ",")
    ensures forall i :: 0 <= i < |table| ==> lines[i + 1] == Join(table[i], ",")
  {
    [Join(headers, ",")] + seq(|table|, i requires 0 <= i < |table| => Join(table[i], ","))
  }

  /** The text of a spreadsheet export: its lines joined by newlines. */
  function Render(headers: seq<string>, table: seq<seq<string>>): string {
    Join(RenderLines(headers, table), "\n")
  }

  /** A cell the export can hold unchanged: no comma, no newline, no white space at either end. */
  predicate PlainCell(c: string) {
    ',' !in c && '\n' !in c && (|c| > 0 ==> !IsSpace(c[0]) && !IsSpace(c[|c| - 1]))
  }

  predicate PlainCells(cells: seq<string>) {
    forall j :: 0 <= j < |cells| ==> PlainCell(cells[j])
  }

  /** Splitting a line of plain cells on commas gives the cells back, each unchanged by `trim`. */
  lemma SplitPlainLine(cells: seq<string>)
    requires |cells| > 0 && PlainCells(cells)
    ensures Split(Join(cells, ","), ",") == cells
    ensures forall j :: 0 <= j < |cells| ==> Trim(cells[j]) == cells[j]
    ensures '\n' !in Join(cells, ",")
  {
    SplitJoin(cells, ",");
    JoinAvoids(cells, ",", '\n');
    forall j | 0 <= j < |cells| ensures Trim(cells[j]) == cells[j] {
      TrimNoEdges(cells[j]);
    }
  }

  /** Splitting a rendered text on newlines gives its lines back. */
  lemma SplitRender(headers: seq<string>, table: seq<seq<string>>)
    requires |headers| > 0 && PlainCells(headers)
    requires forall i :: 0 <= i < |table| ==> |table[i]| > 0 && PlainCells(table[i])
    ensures Split(Render(headers, table), "\n") == RenderLines(headers, table)
    ensures Headers(RenderLines(headers, table)) == headers
  {
    var lines := RenderLines(headers, table);
    SplitPlainLine(headers);
    forall i | 0 <= i < |lines| ensures '\n' !in lines[i] {
      if i > 0 {
        SplitPlainLine(table[i - 1]);
      }
    }
    SplitJoin(lines, "\n");
  }

  /** Reading back a rendered table: one record per data line, keyed by the headers,
      each holding the cell written under it. */
  lemma ParseRender(headers: seq<string>, table: seq<seq<string>>)
    requires |headers| > 0 && PlainCells(headers)
    requires forall j, k :: 0 <= j < k < |headers| ==> headers[j] != headers[k]
    requires forall i :: 0 <= i < |table| ==> |table[i]| == |headers| && PlainCells(table[i])
    ensures |ParseCsv(Render(headers, table))| == |table|
    ensures forall i, j :: 0 <= i < |table| && 0 <= j < |headers| ==>
      headers[j] in ParseCsv(Render(headers, table))[i] &&
      ParseCsv(Render(headers, table))[i][headers[j]] == table[i][j]
  {
    ParseRenderRows(headers, table);
    var rows := ParseCsv(Render(headers, table));
    forall i, j | 0 <= i < |table| && 0 <= j < |headers|
      ensures headers[j] in rows[i] && rows[i][headers[j]] == table[i][j]
    {
      RecordCell(headers, table[i], j);
      TrimNoEdges(table[i][j]);
    }
  }

  /** Each data line of a rendered table parses to the record of that line's cells. */
  lemma ParseRenderRows(headers: seq<string>, table: seq<seq<string>>)
    requires |headers| > 0 && PlainCells(headers)
    requires forall i :: 0 <= i < |table| ==> |table[i]| > 0 && PlainCells(table[i])
    ensures |ParseCsv(Render(headers, table))| == |table|
    ensures forall i :: 0 <= i < |table| ==> ParseCsv(Render(headers, table))[i] == Record(headers, table[i])
  {
    SplitRender(headers, table);
    forall i | 0 <= i < |table| ensures ParseCsv(Render(headers, table))[i] == Record(headers, table[i]) {
      ParseRenderRow(headers, table, i);
    }
  }

  lemma ParseRenderRow(headers: seq<string>, table: seq<seq<string>>, i: nat)
    requires |headers| > 0 && PlainCells(headers)
    requires forall i :: 0 <= i < |table| ==> |table[i]| > 0 && PlainCells(table[i])
    requires i < |table|
    ensures i < |ParseCsv(Render(headers, table))|
    ensures ParseCsv(Render(headers, table))[i] == Record(headers, table[i])
  {
    SplitRender(headers, table);
    ParseCsvRow(Render(headers, table), i);
    SplitPlainLine(table[i]);
  }

  /** Data line `i` (the line after the header line, counting from zero) becomes
      record `i`, keyed by the header cells. */
  lemma ParseCsvRow(text: string, i: nat)
    requires i < |ParseCsv(text)|
    ensures var lines := Split(text, "\n");
      ParseCsv(text)[i] == Record(Headers(lines), Split(lines[i + 1], ","))
  {
  }

  /** A header that no later header repeats holds its own column's cell; so a
      repeated header holds the cell of its last occurrence, and the other headers
      are unaffected by the repetition. */
  lemma RecordCell(headers: seq<string>, values: seq<string>, j: nat)
    requires j < |headers|
    requires forall k :: j < k < |headers| ==> headers[k] != headers[j]
    ensures headers[j] in Record(headers, values)
    ensures Record(headers, values)[headers[j]] == Cell(values, j)
  {
    AssignLookup(headers, Cells(headers, values), |headers|, j);
  }

  /** Why an upload left the seating as it was. */
  datatype UploadError = UnsupportedFormat | GuestColumnMissing

  /** The message shown for each error: the tool's own text for a wrong extension,
      and the engine's TypeError text for reading `trim` of the missing Guest cell. */
  function Message(e: UploadError): string {
    match e
    case UnsupportedFormat => "Formato de arquivo n\U{00E3}o suportado. Por favor, envie um arquivo CSV"
    case GuestColumnMissing => "Cannot read properties of undefined (reading 'trim')"
  }

  /** The chosen file: its name and its text. */
  datatype File = File(name: string, text: string)

  /** The part of the screen an upload changes: the seating shown and the error,
      if any, whose message is displayed (no error displays as the empty text). */
  datatype Screen = Screen(seating: SeatingMap, error: Option<UploadError>)

  /** The error text on the screen. */
  function ErrorText(s: Screen): string {
    match s.error
    case None => ""
    case Some(e) => Message(e)
  }

  /** `handleUploadArquivo`: no file leaves the screen alone; otherwise the error is
      cleared and then either the grouped rows replace the seating, or an error
      appears and the seating stays as it was. */
  function Upload(s: Screen, file: Option<File>): (r: Screen)
    ensures file.None? ==> r == s
    ensures file.Some? && !IsCsvName(file.value.name) ==>
      r == Screen(s.seating, Some(UnsupportedFormat))
  {
    match file
    case None => s
    case Some(f) =>
      if !IsCsvName(f.name) then Screen(s.seating, Some(UnsupportedFormat))
      else
        var rows := ParseCsv(f.text);
        if AllAdmissible(rows) then Screen(Group(rows), None)
        else Screen(s.seating, Some(GuestColumnMissing))
  }

  /** The only way an upload fails on a CSV name: no header is "Guest" and some data
      line has a table number that parses. With a Guest header every line is fine. */
  lemma AdmissibleRows(text: string)
    ensures var rows := ParseCsv(text);
      var headers := Headers(Split(text, "\n"));
      AllAdmissible(rows) <==>
        GuestColumn in headers || forall i :: 0 <= i < |rows| ==> TableOf(rows[i]).None?
  {
    var rows := ParseCsv(text);
    var headers := Headers(Split(text, "\n"));
    var keys := set j | 0 <= j < |headers| :: headers[j];
    ParseCsvKeys(text);
    assert GuestColumn in headers <==> GuestColumn in keys by {
      if GuestColumn in headers {
        var j :| 0 <= j < |headers| && headers[j] == GuestColumn;
        assert headers[j] in keys;
      }
    }
  }

  /** An upload succeeds exactly when the name is a CSV name and every row can be
      grouped: then the error is cleared and the seating is the grouping of the rows;
      otherwise the seating is untouched and the error says which check failed. */
  lemma UploadOutcome(s: Screen, f: File)
    ensures var r := Upload(s, Some(f));
      var rows := ParseCsv(f.text);
      && (IsCsvName(f.name) && AllAdmissible(rows) ==> r.error.None? && r.seating == Group(rows))
      && (!(IsCsvName(f.name) && AllAdmissible(rows)) ==> r.seating == s.seating && r.error.Some?)
      && (r.error == Some(GuestColumnMissing) <==> IsCsvName(f.name) && !AllAdmissible(rows))
      && (r.error == Some(UnsupportedFormat) <==> !IsCsvName(f.name))
  {
    var rows := ParseCsv(f.text);
    if IsCsvName(f.name) {
      assert Upload(s, Some(f)) ==
        if AllAdmissible(rows) then Screen(Group(rows), None) else Screen(s.seating, Some(GuestColumnMissing));
    }
  }

}

=== FILE: grouping.dfy ===
/**
 Grouping of spreadsheet rows into the seating map: the `reduce` over the rows
 in `processarDadosConvidados`. A row without a table number is skipped; a row
 with one opens that table, and then adds a guest unless its name marks a
 spare seat. Each guest carries the Together/Apart columns as directives.
 */
module Grouping {

  import opened Options
  import opened JsString
  import opened JsNumber
  import opened Seating

  /** One data row: column header to cell text, as built from one line of the file. */
  type Row = map<string, string>

  const TableColumn := "Assigned Table No"
  const GuestColumn := "Guest"
  const SparePrefix := "Spare Seat"
  const TogetherPrefix := "Junto com: "
  const ApartPrefix := "Separado de: "

  /** `parseInt(row["Assigned Table No"])`; a missing column reads as `undefined`, which parses to NaN. */
  function TableOf(row: Row): Option<int> {
    if TableColumn in row then ParseInt(row[TableColumn]) else None
  }

  /** The source reads `row.Guest.trim()` only once the table number parsed;
      a row for which that read would throw is not admissible. */
  predicate Admissible(row: Row) {
    TableOf(row).None? || GuestColumn in row
  }

  predicate AllAdmissible(rows: seq<Row>) {
    forall i :: 0 <= i < |rows| ==> Admissible(rows[i])
  }

  function GuestName(row: Row): string
    requires GuestColumn in row
  {
    Trim(row[GuestColumn])
  }

  /** A placeholder row: the trimmed guest name starts with "Spare Seat". */
  predicate IsSpare(row: Row)
    requires GuestColumn in row
  {
    StartsWith(GuestName(row), SparePrefix)
  }

  /** The row puts a guest at table `t`. */
  predicate SeatsAt(row: Row, t: int)
    requires Admissible(row)
  {
    TableOf(row) == Some(t) && !IsSpare(row)
  }

  /** The directive one column contributes: `prefix` and the trimmed cell, or nothing
      when the column is missing or blank. */
  function Directive(row: Row, column: string, prefix: string): (r: seq<string>)
    ensures |r| <= 1
    ensures |r| == 1 <==> column in row && Trim(row[column]) != ""
    ensures |r| == 1 ==> StartsWith(r[0], prefix) && r[0][|prefix|..] == Trim(row[column])
  {
    if column in row && Trim(row[column]) != "" then [prefix + Trim(row[column])] else []
  }

  /** A directive as the grouping writes it: one of the two prefixes, then a non-empty value. */
  predicate IsDirective(d: string) {
    || (StartsWith(d, TogetherPrefix) && |d| > |TogetherPrefix|)
    || (StartsWith(d, ApartPrefix) && |d| > |ApartPrefix|)
  }

  /** The column name `Together${i}` or `Apart${i}` for i in 1..3. */
  function Column(base: string, i: nat): string
    requires 1 <= i <= 3
  {
    base + [('0' as int + i) as char]
  }

  /** The directives from iteration `i` of the loop on, up to and including i = 3. */
  function RelationshipsFrom(row: Row, i: nat): (r: seq<string>)
    requires 1 <= i <= 4
    ensures |r| <= 2 * (4 - i)
    ensures forall k :: 0 <= k < |r| ==> IsDirective(r[k])
    decreases 4 - i
  {
    if i == 4 then []
    else
      var together := Directive(row, Column("Together", i), TogetherPrefix);
      var apart := Directive(row, Column("Apart", i), ApartPrefix);
      var rest := RelationshipsFrom(row, i + 1);
      var r := together + apart + rest;
      assert forall k :: 0 <= k < |r| ==> IsDirective(r[k]) by {
        forall k | 0 <= k < |r| ensures IsDirective(r[k]) {
          if k < |together| {
            assert r[k] == together[k];
          } else if k < |together| + |apart| {
            assert r[k] == apart[k - |together|];
          } else {
            assert r[k] == rest[k - |together| - |apart|];
          }
        }
      }
      r
  }

  /** The relationship directives of a row, in the order Together1, Apart1,
      Together2, Apart2, Together3, Apart3: at most six, each a prefix and a
      trimmed non-empty cell. */
  function Relationships(row: Row): (r: seq<string>)
    ensures |r| <= 6
    ensures forall k :: 0 <= k < |r| ==> IsDirective(r[k])
  {
    RelationshipsFrom(row, 1)
  }

  function GuestOf(row: Row): Guest
    requires GuestColumn in row
  {
    Guest(GuestName(row), Relationships(row))
  }

  /** What one row does to the map under construction: nothing (the table number
      is NaN), open a table (a spare seat), or open a table and seat a guest there. */
  datatype Effect = Skip | Open(table: int) | Seat(table: int, guest: Guest)

  function EffectOf(row: Row): (e: Effect)
    requires Admissible(row)
    ensures e.Skip? <==> TableOf(row).None?
    ensures !e.Skip? ==> TableOf(row) == Some(e.table)
    ensures e.Seat? <==> TableOf(row).Some? && !IsSpare(row)
    ensures e.Seat? ==> e.guest == GuestOf(row)
  {
    match TableOf(row)
    case None => Skip
    case Some(t) => if IsSpare(row) then Open(t) else Seat(t, GuestOf(row))
  }

  /** One step of the reduce: create the table's list if the key is new, then append the guest. */
  function Apply(acc: SeatingMap, e: Effect): (r: SeatingMap)
    ensures e.Skip? ==> r == acc
    ensures forall t :: t in r <==> t in acc || (!e.Skip? && t == e.table)
    ensures forall t :: t in acc && (e.Skip? || t != e.table) ==> r[t] == acc[t]
    ensures e.Open? ==> r[e.table] == (if e.table in acc then acc[e.table] else [])
    ensures e.Seat? ==> r[e.table] == (if e.table in acc then acc[e.table] else []) + [e.guest]
  {
    match e
    case Skip => acc
    case Open(t) => if t in acc then acc else acc[t := []]
    case Seat(t, g) =>
      var withTable := if t in acc then acc else acc[t := []];
      withTable[t := withTable[t] + [g]]
  }

  /** Some effect in the list touches table `t`. */
  predicate Touches(es: seq<Effect>, t: int) {
    exists i :: 0 <= i < |es| && !es[i].Skip? && es[i].table == t
  }

  /** The left fold of `Apply` from the empty map: a table exists exactly when some
      effect touches it. */
  function Fold(es: seq<Effect>): (m: SeatingMap)
    ensures forall t :: t in m <==> Touches(es, t)
    decreases |es|
  {
    if |es| == 0 then map[]
    else
      var init, last := es[..|es| - 1], es[|es| - 1];
      assert forall t :: Touches(es, t) <==> Touches(init, t) || (!last.Skip? && last.table == t) by {
        forall t ensures Touches(es, t) <==> Touches(init, t) || (!last.Skip? && last.table == t) {
          if Touches(es, t) && !Touches(init, t) {
            var i :| 0 <= i < |es| && !es[i].Skip? && es[i].table == t;
          }
          if Touches(init, t) {
            var i :| 0 <= i < |init| && !init[i].Skip? && init[i].table == t;
            assert es[i] == init[i];
          }
        }
      }
      Apply(Fold(init), last)
  }

  function Effects(rows: seq<Row>): (es: seq<Effect>)
    requires AllAdmissible(rows)
    ensures |es| == |rows|
    ensures forall i :: 0 <= i < |rows| ==> es[i] == EffectOf(rows[i])
  {
    seq(|rows|, i requires 0 <= i < |rows| => EffectOf(rows[i]))
  }

  /** `processarDadosConvidados`: the reduce over the rows from the empty object.
      A table exists exactly when some row names it with a parseable number. */
  function Group(rows: seq<Row>): (m: SeatingMap)
    requires AllAdmissible(rows)
    ensures forall t :: t in m <==> exists i :: 0 <= i < |rows| && TableOf(rows[i]) == Some(t)
  {
    var es := Effects(rows);
    assert forall t :: Touches(es, t) <==> exists i :: 0 <= i < |rows| && TableOf(rows[i]) == Some(t) by {
      forall t ensures Touches(es, t) <==> exists i :: 0 <= i < |rows| && TableOf(rows[i]) == Some(t) {
        if Touches(es, t) {
          var i :| 0 <= i < |es| && !es[i].Skip? && es[i].table == t;
          assert TableOf(rows[i]) == Some(t);
        }
        if exists i :: 0 <= i < |rows| && TableOf(rows[i]) == Some(t) {
          var i :| 0 <= i < |rows| && TableOf(rows[i]) == Some(t);
          assert !es[i].Skip? && es[i].table == t;
        }
      }
    }
    Fold(es)
  }

  /** Reference view of one table over effects: the guests seated there, in order. */
  function SeatedAt(es: seq<Effect>, t: int): seq<Guest>
    decreases |es|
  {
    if |es| == 0 then []
    else (if es[0].Seat? && es[0].table == t then [es[0].guest] else []) + SeatedAt(es[1..], t)
  }

  function SeatCount(es: seq<Effect>): nat
    decreases |es|
  {
    if |es| == 0 then 0 else (if es[0].Seat? then 1 else 0) + SeatCount(es[1..])
  }

  lemma {:induction false} SeatedAtAppend(a: seq<Effect>, b: seq<Effect>, t: int)
    ensures SeatedAt(a + b, t) == SeatedAt(a, t) + SeatedAt(b, t)
    decreases |a|
  {
    if |a| > 0 {
      assert (a + b)[1..] == a[1..] + b;
      SeatedAtAppend(a[1..], b, t);
    } else {
      assert a + b == b;
    }
  }

  lemma {:induction false} SeatCountAppend(a: seq<Effect>, b: seq<Effect>)
    ensures SeatCount(a + b) == SeatCount(a) + SeatCount(b)
    decreases |a|
  {
    if |a| > 0 {
      assert (a + b)[1..] == a[1..] + b;
      SeatCountAppend(a[1..], b);
    } else {
      assert a + b == b;
    }
  }

  lemma TouchesAppend(a: seq<Effect>, b: seq<Effect>, t: int)
    ensures Touches(a + b, t) <==> Touches(a, t) || Touches(b, t)
  {
    if Touches(a + b, t) {
      var i :| 0 <= i < |a + b| && !(a + b)[i].Skip? && (a + b)[i].table == t;
      if i < |a| {
        assert a[i] == (a + b)[i];
      } else {
        assert b[i - |a|] == (a + b)[i];
      }
    }
    if Touches(a, t) {
      var i :| 0 <= i < |a| && !a[i].Skip? && a[i].table == t;
      assert (a + b)[i] == a[i];
    }
    if Touches(b, t) {
      var i :| 0 <= i < |b| && !b[i].Skip? && b[i].table == t;
      assert (a + b)[i + |a|] == b[i];
    }
  }

  /** A table nothing touches seats no one. */
  lemma {:induction false} SeatedAtUntouched(es: seq<Effect>, t: int)
    requires !Touches(es, t)
    ensures SeatedAt(es, t) == []
    decreases |es|
  {
    if |es| > 0 {
      TouchesAppend([es[0]], es[1..], t);
      assert es == [es[0]] + es[1..];
      assert !Touches([es[0]], t);
      SeatedAtUntouched(es[1..], t);
    }
  }

  /** Each table of the fold lists the guests seated there, in effect order. */
  lemma {:induction false} FoldTables(es: seq<Effect>)
    ensures forall t :: t in Fold(es) ==> Fold(es)[t] == SeatedAt(es, t)
    decreases |es|
  {
    if |es| > 0 {
      var init, last := es[..|es| - 1], es[|es| - 1];
      FoldTables(init);
      assert es == init + [last];
      forall t | t in Fold(es) ensures Fold(es)[t] == SeatedAt(es, t) {
        SeatedAtAppend(init, [last], t);
        assert SeatedAt([last], t) == if last.Seat? && last.table == t then [last.guest] else [];
        if t !in Fold(init) {
          SeatedAtUntouched(init, t);
        }
      }
    }
  }

  /** The fold holds one guest record per seating effect. */
  lemma {:induction false} FoldTotal(es: seq<Effect>)
    ensures TotalGuests(Fold(es)) == SeatCount(es)
    decreases |es|
  {
    if |es| > 0 {
      var init, last := es[..|es| - 1], es[|es| - 1];
      FoldTotal(init);
      assert es == init + [last];
      SeatCountAppend(init, [last]);
      var prev := Fold(init);
      if !last.Skip? {
        var t := last.table;
        var withTable := if t in prev then prev else prev[t := []];
        if t !in prev {
          SumOverNewEmpty(prev, Size, t);
        }
        if last.Seat? {
          SumOverReplace(withTable, Size, t, withTable[t] + [last.guest]);
        }
      }
    }
  }

  /** Two effect lists fold to the same map when they touch the same tables and seat
      the same guests at each. */
  lemma FoldSame(es: seq<Effect>, es': seq<Effect>)
    requires forall t :: Touches(es, t) <==> Touches(es', t)
    requires forall t :: SeatedAt(es, t) == SeatedAt(es', t)
    ensures Fold(es) == Fold(es')
  {
    var m, m' := Fold(es), Fold(es');
    FoldTables(es);
    FoldTables(es');
    forall t ensures t in m <==> t in m' {
      assert Touches(es, t) <==> Touches(es', t);
    }
    assert m.Keys == m'.Keys;
    forall t | t in m ensures m[t] == m'[t] {
      assert SeatedAt(es, t) == SeatedAt(es', t);
    }
  }

  lemma EffectsAppend(a: seq<Row>, b: seq<Row>)
    requires AllAdmissible(a) && AllAdmissible(b)
    ensures AllAdmissible(a + b)
    ensures Effects(a + b) == Effects(a) + Effects(b)
  {
    assert AllAdmissible(a + b) by {
      forall i | 0 <= i < |a + b| ensures Admissible((a + b)[i]) {
        if i >= |a| {
          assert (a + b)[i] == b[i - |a|];
        }
      }
    }
  }

  /** The guests of the rows seated at table `t`, in row order. */
  function Seated(rows: seq<Row>, t: int): seq<Guest>
    requires AllAdmissible(rows)
    decreases |rows|
  {
    if |rows| == 0 then []
    else (if SeatsAt(rows[0], t) then [GuestOf(rows[0])] else []) + Seated(rows[1..], t)
  }

  /** The number of rows with a parseable table number and a name that is not a spare seat. */
  function SeatedCount(rows: seq<Row>): nat
    requires AllAdmissible(rows)
    decreases |rows|
  {
    if |rows| == 0 then 0
    else (if TableOf(rows[0]).Some? && !IsSpare(rows[0]) then 1 else 0) + SeatedCount(rows[1..])
  }

  lemma SeatedOfEffects(rows: seq<Row>, t: int)
    requires AllAdmissible(rows)
    ensures SeatedAt(Effects(rows), t) == Seated(rows, t)
    ensures SeatCount(Effects(rows)) == SeatedCount(rows)
  {
    SeatedAtOfEffects(rows, t);
    SeatCountOfEffects(rows);
  }

  /** The effects seat at table `t` the guests of the rows seated there, in row order. */
  lemma {:induction false} SeatedAtOfEffects(rows: seq<Row>, t: int)
    requires AllAdmissible(rows)
    ensures SeatedAt(Effects(rows), t) == Seated(rows, t)
    decreases |rows|
  {
    if |rows| > 0 {
      var es := Effects(rows);
      assert es[1..] == Effects(rows[1..]);
      SeatedAtOfEffects(rows[1..], t);
      assert es[0] == EffectOf(rows[0]);
      EffectSeats(rows[0], t);
    }
  }

  /** The effects seat as many guests as there are rows with a table and a real name. */
  lemma {:induction false} SeatCountOfEffects(rows: seq<Row>)
    requires AllAdmissible(rows)
    ensures SeatCount(Effects(rows)) == SeatedCount(rows)
    decreases |rows|
  {
    if |rows| > 0 {
      var es := Effects(rows);
      assert es[1..] == Effects(rows[1..]);
      SeatCountOfEffects(rows[1..]);
      assert es[0] == EffectOf(rows[0]);
    }
  }

  /** A row's effect seats its guest at table `t` exactly when the row seats someone there. */
  lemma EffectSeats(row: Row, t: int)
    requires Admissible(row)
    ensures (EffectOf(row).Seat? && EffectOf(row).table == t) <==> SeatsAt(row, t)
    ensures EffectOf(row).Seat? ==> EffectOf(row).guest == GuestOf(row)
  {
  }


  /** Within a table, the guests are exactly those of the rows seated there, in the
      order of the rows. */
  lemma GroupTables(rows: seq<Row>)
    requires AllAdmissible(rows)
    ensures forall t :: t in Group(rows) ==> Group(rows)[t] == Seated(rows, t)
  {
    FoldTables(Effects(rows));
    forall t ensures SeatedAt(Effects(rows), t) == Seated(rows, t) {
      SeatedOfEffects(rows, t);
    }
  }

  /** The guest records across all tables number exactly the rows with a parseable
      table number and a name that is not a spare seat. */
  lemma GroupTotal(rows: seq<Row>)
    requires AllAdmissible(rows)
    ensures TotalGuests(Group(rows)) == SeatedCount(rows)
  {
    FoldTotal(Effects(rows));
    SeatedOfEffects(rows, 0);
  }

  /** Inserting one effect touches what it touched before, plus the effect's own table. */
  lemma TouchesInsert(ea: seq<Effect>, e: Effect, eb: seq<Effect>, u: int)
    ensures Touches(ea + [e] + eb, u) <==> Touches(ea + eb, u) || (!e.Skip? && e.table == u)
  {
    TouchesAppend(ea, [e], u);
    TouchesAppend(ea + [e], eb, u);
    TouchesAppend(ea, eb, u);
    assert Touches([e], u) <==> !e.Skip? && e.table == u by {
      assert [e][0] == e;
    }
  }

  /** Inserting an effect that seats no one leaves every table's guests as they were. */
  lemma SeatedInsertQuiet(ea: seq<Effect>, e: Effect, eb: seq<Effect>, u: int)
    requires !e.Seat?
    ensures SeatedAt(ea + [e] + eb, u) == SeatedAt(ea + eb, u)
  {
    SeatedAtAppend(ea, [e], u);
    SeatedAtAppend(ea + [e], eb, u);
    SeatedAtAppend(ea, eb, u);
    assert SeatedAt([e], u) == [];
  }

  /** A skipped effect changes nothing, wherever it stands. */
  lemma FoldSkip(ea: seq<Effect>, eb: seq<Effect>)
    ensures Fold(ea + [Skip] + eb) == Fold(ea + eb)
  {
    forall t ensures (Touches(ea + [Skip] + eb, t) <==> Touches(ea + eb, t))
      && SeatedAt(ea + [Skip] + eb, t) == SeatedAt(ea + eb, t)
    {
      TouchesInsert(ea, Skip, eb, t);
      SeatedInsertQuiet(ea, Skip, eb, t);
    }
    FoldSame(ea + [Skip] + eb, ea + eb);
  }

  /** An opening effect adds its table, with no guests if it was absent, wherever it stands. */
  lemma FoldOpen(ea: seq<Effect>, eb: seq<Effect>, t: int)
    ensures var g := Fold(ea + eb);
      Fold(ea + [Open(t)] + eb) == if t in g then g else g[t := []]
  {
    var g, g' := Fold(ea + eb), Fold(ea + [Open(t)] + eb);
    var expected := if t in g then g else g[t := []];
    forall u ensures u in g' <==> u in expected {
      FoldOpenKey(ea, eb, t, u, expected);
    }
    forall u | u in g' ensures g'[u] == expected[u] {
      FoldOpenKey(ea, eb, t, u, expected);
    }
    MapsEqual(g', expected);
  }

  lemma FoldOpenKey(ea: seq<Effect>, eb: seq<Effect>, t: int, u: int, expected: SeatingMap)
    requires expected == if t in Fold(ea + eb) then Fold(ea + eb) else Fold(ea + eb)[t := []]
    ensures u in Fold(ea + [Open(t)] + eb) <==> u in expected
    ensures u in expected ==> Fold(ea + [Open(t)] + eb)[u] == expected[u]
  {
    var es, es' := ea + [Open(t)] + eb, ea + eb;
    TouchesInsert(ea, Open(t), eb, u);
    SeatedInsertQuiet(ea, Open(t), eb, u);
    FoldTables(es);
    FoldTables(es');
    if u == t && t !in Fold(es') {
      SeatedAtUntouched(es', t);
    }
  }

  lemma EffectsInsert(a: seq<Row>, r: Row, b: seq<Row>)
    requires AllAdmissible(a) && Admissible(r) && AllAdmissible(b)
    ensures AllAdmissible(a + [r] + b) && AllAdmissible(a + b)
    ensures Effects(a + [r] + b) == Effects(a) + [EffectOf(r)] + Effects(b)
    ensures Effects(a + b) == Effects(a) + Effects(b)
  {
    EffectsAppend(a, [r]);
    EffectsAppend(a + [r], b);
    EffectsAppend(a, b);
  }

  /** A row whose table number does not parse adds no table and no guest, wherever it stands. */
  lemma UnparsedRowIgnored(a: seq<Row>, r: Row, b: seq<Row>)
    requires AllAdmissible(a) && AllAdmissible(b)
    requires TableOf(r).None?
    ensures AllAdmissible(a + [r] + b)
    ensures Group(a + [r] + b) == Group(a + b)
  {
    EffectsInsert(a, r, b);
    FoldSkip(Effects(a), Effects(b));
  }

  /** A spare-seat row with a valid table number opens that table (with no guests if
      it was not there) and adds no guest, wherever it stands. */
  lemma SpareRowOpensTable(a: seq<Row>, r: Row, b: seq<Row>, t: int)
    requires AllAdmissible(a) && AllAdmissible(b)
    requires TableOf(r) == Some(t) && GuestColumn in r && IsSpare(r)
    ensures AllAdmissible(a + [r] + b)
    ensures var g := Group(a + b);
      Group(a + [r] + b) == if t in g then g else g[t := []]
  {
    EffectsInsert(a, r, b);
    FoldOpen(Effects(a), Effects(b), t);
  }

  /** A table whose rows are all spare seats is present with an empty guest list. */
  lemma SpareOnlyTable(rows: seq<Row>, t: int)
    requires AllAdmissible(rows)
    requires exists i :: 0 <= i < |rows| && TableOf(rows[i]) == Some(t)
    requires forall i :: 0 <= i < |rows| ==> !SeatsAt(rows[i], t)
    ensures t in Group(rows) && Group(rows)[t] == []
  {
    GroupTables(rows);
    SeatedNone(rows, t);
  }

  lemma {:induction false} SeatedNone(rows: seq<Row>, t: int)
    requires AllAdmissible(rows)
    requires forall i :: 0 <= i < |rows| ==> !SeatsAt(rows[i], t)
    ensures Seated(rows, t) == []
    decreases |rows|
  {
    if |rows| > 0 {
      assert !SeatsAt(rows[0], t);
      SeatedNone(rows[1..], t);
    }
  }

  lemma DirectiveFilled(row: Row, column: string, prefix: string)
    requires column in row && Trim(row[column]) != ""
    ensures Directive(row, column, prefix) == [prefix + Trim(row[column])]
  {
  }

  /** With every Together/Apart column filled, the directives come in the interleaved
      column order, each the prefix followed by the trimmed cell. */
  lemma RelationshipsOrder(row: Row, t1: string, a1: string, t2: string, a2: string, t3: string, a3: string)
    requires "Together1" in row && Trim(row["Together1"]) == t1 && t1 != ""
    requires "Apart1" in row && Trim(row["Apart1"]) == a1 && a1 != ""
    requires "Together2" in row && Trim(row["Together2"]) == t2 && t2 != ""
    requires "Apart2" in row && Trim(row["Apart2"]) == a2 && a2 != ""
    requires "Together3" in row && Trim(row["Together3"]) == t3 && t3 != ""
    requires "Apart3" in row && Trim(row["Apart3"]) == a3 && a3 != ""
    ensures Relationships(row) == [
      TogetherPrefix + t1, ApartPrefix + a1,
      TogetherPrefix + t2, ApartPrefix + a2,
      TogetherPrefix + t3, ApartPrefix + a3]
  {
    ColumnNames();
    RelationshipsFilled(row, 1, t1, a1);
    RelationshipsFilled(row, 2, t2, a2);
    RelationshipsFilled(row, 3, t3, a3);
    SixPairs(TogetherPrefix + t1, ApartPrefix + a1, TogetherPrefix + t2, ApartPrefix + a2,
      TogetherPrefix + t3, ApartPrefix + a3);
  }

  /** For every row, the directives are the contributions of Together1, Apart1,
      Together2, Apart2, Together3 and Apart3 in that order; each column contributes
      its prefix and trimmed cell when the trimmed cell is non-empty, and nothing
      when it is blank or missing (`Directive`). */
  lemma RelationshipsColumns(row: Row)
    ensures Relationships(row) ==
      Directive(row, "Together1", TogetherPrefix) + Directive(row, "Apart1", ApartPrefix) +
      (Directive(row, "Together2", TogetherPrefix) + Directive(row, "Apart2", ApartPrefix) +
      (Directive(row, "Together3", TogetherPrefix) + Directive(row, "Apart3", ApartPrefix) + []))
  {
    ColumnNames();
    RelationshipsStep(row, 1);
    RelationshipsStep(row, 2);
    RelationshipsStep(row, 3);
  }

  /** The six column names the loop reads. */
  lemma ColumnNames()
    ensures Column("Together", 1) == "Together1" && Column("Apart", 1) == "Apart1"
    ensures Column("Together", 2) == "Together2" && Column("Apart", 2) == "Apart2"
    ensures Column("Together", 3) == "Together3" && Column("Apart", 3) == "Apart3"
  {
  }

  /** Iteration `i` with both of its columns filled contributes both directives, Together first. */
  lemma RelationshipsFilled(row: Row, i: nat, t: string, a: string)
    requires 1 <= i <= 3
    requires Column("Together", i) in row && Trim(row[Column("Together", i)]) == t && t != ""
    requires Column("Apart", i) in row && Trim(row[Column("Apart", i)]) == a && a != ""
    ensures RelationshipsFrom(row, i) == [TogetherPrefix + t, ApartPrefix + a] + RelationshipsFrom(row, i + 1)
  {
    var together := Directive(row, Column("Together", i), TogetherPrefix);
    var apart := Directive(row, Column("Apart", i), ApartPrefix);
    RelationshipsStep(row, i);
    DirectiveFilled(row, Column("Together", i), TogetherPrefix);
    DirectiveFilled(row, Column("Apart", i), ApartPrefix);
    PairThen(together, apart, TogetherPrefix + t, ApartPrefix + a, RelationshipsFrom(row, i + 1));
  }

  lemma PairThen<T>(x: seq<T>, y: seq<T>, a: T, b: T, rest: seq<T>)
    requires x == [a] && y == [b]
    ensures x + y + rest == [a, b] + rest
  {
  }

  /** Iteration `i` contributes its Together directive, then its Apart directive. */
  lemma RelationshipsStep(row: Row, i: nat)
    requires 1 <= i <= 3
    ensures RelationshipsFrom(row, i) ==
      Directive(row, Column("Together", i), TogetherPrefix) + Directive(row, Column("Apart", i), ApartPrefix)
      + RelationshipsFrom(row, i + 1)
  {
  }

  lemma SixPairs<T>(x1: T, x2: T, x3: T, x4: T, x5: T, x6: T)
    ensures [x1, x2] + ([x3, x4] + ([x5, x6] + [])) == [x1, x2, x3, x4, x5, x6]
  {
  }

  /** Blank and missing columns are skipped: a row whose only filled relationship
      column is Apart2 yields the one directive for it. */
  lemma RelationshipsSkipBlank(row: Row, v: string)
    requires "Apart2" in row && Trim(row["Apart2"]) == v && v != ""
    requires "Together1" !in row && "Apart1" !in row && "Together3" !in row && "Apart3" !in row
    requires "Together2" in row && Trim(row["Together2"]) == ""
    ensures Relationships(row) == [ApartPrefix + v]
  {
    ColumnNames();
    RelationshipsStep(row, 1);
    RelationshipsStep(row, 2);
    RelationshipsStep(row, 3);
    DirectiveBlank(row, "Together1", TogetherPrefix);
    DirectiveBlank(row, "Apart1", ApartPrefix);
    DirectiveBlank(row, "Together2", TogetherPrefix);
    DirectiveFilled(row, "Apart2", ApartPrefix);
    DirectiveBlank(row, "Together3", TogetherPrefix);
    DirectiveBlank(row, "Apart3", ApartPrefix);
    assert RelationshipsFrom(row, 3) == [];
  }

  lemma DirectiveBlank(row: Row, column: string, prefix: string)
    requires column !in row || Trim(row[column]) == ""
    ensures Directive(row, column, prefix) == []
  {
  }

}

=== FILE: js_number.dfy ===
/**
 JavaScript's `parseInt(s)` with no radix argument, and `String(n)` for an
 integer `n`, both over unbounded integers.
 */
module JsNumber {

  import opened Options
  import opened JsString

  predicate IsDecimalDigit(c: char) {
    '0' <= c <= '9'
  }

  /** A digit of the given radix (10 or 16): letters count in either case. */
  predicate IsRadixDigit(c: char, radix: nat)
    requires radix == 10 || radix == 16
  {
    IsDecimalDigit(c) || (radix == 16 && ('a' <= c <= 'f' || 'A' <= c <= 'F'))
  }

  function DigitValue(c: char, radix: nat): (v: nat)
    requires radix == 10 || radix == 16
    requires IsRadixDigit(c, radix)
    ensures v < radix
  {
    if IsDecimalDigit(c) then c as int - '0' as int
    else if 'a' <= c <= 'f' then c as int - 'a' as int + 10
    else c as int - 'A' as int + 10
  }

  /** The longest prefix of `s` made of digits of the radix. */
  function DigitPrefix(s: string, radix: nat): (r: string)
    requires radix == 10 || radix == 16
    ensures |r| <= |s| && r == s[..|r|]
    ensures forall k :: 0 <= k < |r| ==> IsRadixDigit(r[k], radix)
    ensures |r| < |s| ==> !IsRadixDigit(s[|r|], radix)
    decreases |s|
  {
    if |s| > 0 && IsRadixDigit(s[0], radix) then [s[0]] + DigitPrefix(s[1..], radix) else []
  }

  /** The value of a digit string, most significant digit first. */
  function DigitsValue(ds: string, radix: nat): nat
    requires radix == 10 || radix == 16
    requires forall k :: 0 <= k < |ds| ==> IsRadixDigit(ds[k], radix)
    decreases |ds|
  {
    if |ds| == 0 then 0
    else
      var high := DigitsValue(ds[..|ds| - 1], radix);
      (if radix == 10 then high * 10 else high * 16) + DigitValue(ds[|ds| - 1], radix)
  }

  /** The text after the white space starts with a minus sign. */
  predicate IsNegative(body: string) {
    |body| > 0 && body[0] == '-'
  }

  /** The text after an optional leading sign. */
  function Unsigned(body: string): string {
    if |body| > 0 && (body[0] == '-' || body[0] == '+') then body[1..] else body
  }

  predicate HasHexPrefix(u: string) {
    |u| >= 2 && u[0] == '0' && (u[1] == 'x' || u[1] == 'X')
  }

  /** After the optional sign, and the `0x` of a hexadecimal literal, comes a digit. */
  predicate StartsWithDigit(body: string) {
    var u := Unsigned(body);
    if HasHexPrefix(u) then |u| > 2 && IsRadixDigit(u[2], 16) else |u| > 0 && IsRadixDigit(u[0], 10)
  }

  /** The magnitude `parseInt` reads from unsigned text: hexadecimal after
      `0x`/`0X`, decimal otherwise; None when no digit follows. */
  function ParseMagnitude(u: string): Option<nat> {
    var radix := if HasHexPrefix(u) then 16 else 10;
    var digits := DigitPrefix(if HasHexPrefix(u) then u[2..] else u, radix);
    if |digits| == 0 then None else Some(DigitsValue(digits, radix))
  }

  /** `parseInt(s)`: skip leading white space, read an optional sign, then the
      magnitude, stopping at the first character that is not a digit; None
      stands for NaN, which is the result when no digit was read. */
  function ParseInt(s: string): (r: Option<int>)
    ensures r.Some? <==> StartsWithDigit(TrimStart(s))
    ensures r.Some? && r.value < 0 ==> IsNegative(TrimStart(s))
  {
    ReadSigned(TrimStart(s))
  }

  /** What `parseInt` reads once the leading white space is gone. */
  function ReadSigned(body: string): Option<int> {
    match ParseMagnitude(Unsigned(body))
    case None => None
    case Some(v) => Some(if IsNegative(body) then -(v as int) else v)
  }

  /** The decimal digits of `n`, most significant first, without leading zeros. */
  function NatToString(n: nat): (r: string)
    ensures |r| > 0
    ensures forall k :: 0 <= k < |r| ==> IsDecimalDigit(r[k])
    ensures DigitsValue(r, 10) == n
    ensures |r| > 1 ==> r[0] != '0'
    decreases n
  {
    var last := ['0' + ((n % 10) as char)];
    if n < 10 then last
    else
      var r := NatToString(n / 10) + last;
      assert r[..|r| - 1] == NatToString(n / 10);
      r
  }

  /** `String(n)` for an integer `n`: a minus sign for negative numbers, then the digits. */
  function IntToString(n: int): (r: string)
    ensures |r| > 0
    ensures n < 0 <==> r[0] == '-'
  {
    if n < 0 then "-" + NatToString(-n) else NatToString(n)
  }

  lemma {:induction false} DigitPrefixOfDigits(ds: string, rest: string, radix: nat)
    requires radix == 10 || radix == 16
    requires forall k :: 0 <= k < |ds| ==> IsRadixDigit(ds[k], radix)
    requires |rest| > 0 ==> !IsRadixDigit(rest[0], radix)
    ensures DigitPrefix(ds + rest, radix) == ds
    decreases |ds|
  {
    if |ds| > 0 {
      assert (ds + rest)[1..] == ds[1..] + rest;
      DigitPrefixOfDigits(ds[1..], rest, radix);
    } else {
      assert ds + rest == rest;
    }
  }

  /** Decimal digits, leading zeros allowed, followed by text that does not extend them
      read as their value. */
  lemma MagnitudeOfDigits(ds: string, rest: string)
    requires |ds| > 0 && forall k :: 0 <= k < |ds| ==> IsDecimalDigit(ds[k])
    requires |rest| > 0 ==> !IsDecimalDigit(rest[0])
    requires ds == "0" && |rest| > 0 ==> rest[0] != 'x' && rest[0] != 'X'
    ensures ParseMagnitude(ds + rest) == Some(DigitsValue(ds, 10))
  {
    var u := ds + rest;
    assert !HasHexPrefix(u) by {
      if |u| >= 2 && u[0] == '0' {
        if |ds| > 1 {
          assert u[1] == ds[1];
        } else {
          assert ds == "0";
          assert u[1] == rest[0];
        }
      }
    }
    DigitPrefixOfDigits(ds, rest, 10);
  }

  /** Text that starts with neither white space nor a sign is read as a magnitude. */
  lemma ParseIntOfUnsigned(u: string)
    requires |u| > 0 && !IsSpace(u[0]) && u[0] != '-' && u[0] != '+'
    ensures ParseInt(u) == ParseMagnitude(u)
  {
    assert TrimStart(u) == u;
    assert Unsigned(u) == u;
    assert !IsNegative(u);
  }

  /** A leading minus sign negates the magnitude read after it, whatever follows. */
  lemma ParseIntOfNegative(s: string, u: string)
    requires s == "-" + u
    ensures ParseMagnitude(u).None? ==> ParseInt(s).None?
    ensures ParseMagnitude(u).Some? ==> ParseInt(s) == Some(-(ParseMagnitude(u).value as int))
  {
    assert TrimStart(s) == s;
    assert Unsigned(s) == u;
    assert IsNegative(s);
  }

  lemma ConcatAssoc(a: string, b: string, c: string)
    ensures (a + b) + c == a + (b + c)
  {
  }

  lemma DigitsValueZero()
    ensures DigitsValue("0", 10) == 0
  {
    assert "0"[..0] == "";
  }

  /** A digit is neither white space nor a sign. */
  lemma DigitNotSpace(c: char)
    requires IsDecimalDigit(c)
    ensures !IsSpace(c) && c != '-' && c != '+'
  {
  }

  /** Decimal digits with a non-extending tail read as their value; leading zeros
      change nothing, so "007" reads as 7. */
  lemma ParseIntOfDigits(s: string, ds: string, rest: string)
    requires s == ds + rest
    requires |ds| > 0 && forall k :: 0 <= k < |ds| ==> IsDecimalDigit(ds[k])
    requires |rest| > 0 ==> !IsDecimalDigit(rest[0])
    requires ds == "0" && |rest| > 0 ==> rest[0] != 'x' && rest[0] != 'X'
    ensures ParseInt(s) == Some(DigitsValue(ds, 10) as int)
  {
    MagnitudeOfDigits(ds, rest);
    assert s[0] == ds[0];
    DigitNotSpace(ds[0]);
    ParseIntOfUnsigned(s);
  }

  /** The same digits after a minus sign read as the negated value, so "-01" reads as -1. */
  lemma ParseIntOfNegDigits(s: string, ds: string, rest: string)
    requires s == "-" + (ds + rest)
    requires |ds| > 0 && forall k :: 0 <= k < |ds| ==> IsDecimalDigit(ds[k])
    requires |rest| > 0 ==> !IsDecimalDigit(rest[0])
    requires ds == "0" && |rest| > 0 ==> rest[0] != 'x' && rest[0] != 'X'
    ensures ParseInt(s).Some? && ParseInt(s).value == -(DigitsValue(ds, 10) as int)
  {
    var u := ds + rest;
    MagnitudeOfDigits(ds, rest);
    var v := DigitsValue(ds, 10);
    assert ParseMagnitude(u) == Some(v);
    ParseIntOfNegative(s, u);
  }

  /** A leading plus sign reads the magnitude after it unchanged. */
  lemma ParseIntOfPositive(s: string, u: string)
    requires s == "+" + u
    ensures ParseInt(s) == ParseMagnitude(u)
  {
    assert TrimStart(s) == s;
    assert Unsigned(s) == u;
    assert !IsNegative(s);
  }

  /** The same digits after a plus sign read as their value, so "+5" reads as 5. */
  lemma ParseIntOfPlusDigits(s: string, ds: string, rest: string)
    requires s == "+" + (ds + rest)
    requires |ds| > 0 && forall k :: 0 <= k < |ds| ==> IsDecimalDigit(ds[k])
    requires |rest| > 0 ==> !IsDecimalDigit(rest[0])
    requires ds == "0" && |rest| > 0 ==> rest[0] != 'x' && rest[0] != 'X'
    ensures ParseInt(s) == Some(DigitsValue(ds, 10) as int)
  {
    MagnitudeOfDigits(ds, rest);
    ParseIntOfPositive(s, ds + rest);
  }

  /** `parseInt` reads back what `String` wrote, and ignores whatever follows
      the number as long as it does not extend the number: no further digit,
      and for zero no `x` that would turn `0` into a hexadecimal prefix. */
  lemma ParseIntOfString(n: int, rest: string)
    requires |rest| > 0 ==> !IsDecimalDigit(rest[0])
    requires n == 0 && |rest| > 0 ==> rest[0] != 'x' && rest[0] != 'X'
    ensures ParseInt(IntToString(n) + rest) == Some(n)
  {
    var ds := NatToString(if n < 0 then -n else n);
    var s := IntToString(n) + rest;
    if ds == "0" {
      DigitsValueZero();
    }
    if n < 0 {
      ConcatAssoc("-", ds, rest);
      ParseIntOfNegDigits(s, ds, rest);
    } else {
      ParseIntOfDigits(s, ds, rest);
    }
  }

  lemma ParseIntRoundTrip(n: int)
    ensures ParseInt(IntToString(n)) == Some(n)
  {
    ParseIntOfString(n, "");
    assert IntToString(n) + "" == IntToString(n);
  }

  /** Leading white space never changes what `parseInt` reads. */
  lemma ParseIntSkipsSpace(w: string, s: string)
    requires AllSpace(w)
    ensures ParseInt(w + s) == ParseInt(s)
  {
    TrimStartSkips(w, s);
    ParseIntReadsTrimmed(w + s, s);
  }

  /** `parseInt` only looks at the text after the leading white space. */
  lemma ParseIntReadsTrimmed(a: string, b: string)
    requires TrimStart(a) == TrimStart(b)
    ensures ParseInt(a) == ParseInt(b)
  {
  }

  lemma {:induction false} TrimStartSkips(w: string, s: string)
    requires AllSpace(w)
    ensures TrimStart(w + s) == TrimStart(s)
    decreases |w|
  {
    if |w| > 0 {
      assert (w + s)[1..] == w[1..] + s;
      TrimStartSkips(w[1..], s);
    } else {
      assert w + s == s;
    }
  }

  /** Without a radix, a leading `0x` switches to hexadecimal: "0x10" reads as sixteen. */
  lemma ParseIntHexPrefix()
    ensures ParseInt("0x10") == Some(16)
  {
    HexMagnitude();
    ParseIntOfUnsigned("0x10");
  }

  lemma HexMagnitude()
    ensures ParseMagnitude("0x10") == Some(16)
  {
    assert HasHexPrefix("0x10");
    assert "0x10"[2..] == "10";
    HexDigits();
  }

  lemma HexDigits()
    ensures DigitPrefix("10", 16) == "10"
    ensures DigitsValue("10", 16) == 16
  {
    assert DigitPrefix("", 16) == "";
    assert DigitPrefix("0", 16) == "0";
    assert "10"[..1] == "1";
  }

  /** A `0x` prefix with no hexadecimal digit after it reads as NaN. */
  lemma ParseIntHexEmpty()
    ensures ParseInt("0x") == None
  {
    assert ParseMagnitude("0x") == None by {
      assert HasHexPrefix("0x");
      assert "0x"[2..] == "";
    }
    ParseIntOfUnsigned("0x");
  }

  /** Text that starts with a letter reads as NaN: "Mesa 1" is no table number. */
  lemma ParseIntOfWord()
    ensures ParseInt("Mesa 1") == None
  {
    assert ParseMagnitude("Mesa 1") == None by {
      assert !HasHexPrefix("Mesa 1");
      assert DigitPrefix("Mesa 1", 10) == "";
    }
    ParseIntOfUnsigned("Mesa 1");
  }

}

=== FILE: js_string.dfy ===
/**
 The handful of JavaScript string operations the seating tool relies on:
 `indexOf`/`includes`, `startsWith`, `split` with a string separator, `trim`
 and `toLowerCase`, written over `seq<char>`.
 */
module JsString {

  import opened Options

  /** The characters `String.prototype.trim` removes and `parseInt` skips:
      the WhiteSpace and LineTerminator productions of ECMAScript. */
  predicate IsSpace(c: char) {
    || c == '\t' || c == '\n' || c == '\U{000B}' || c == '\U{000C}' || c == '\r'
    || c == ' ' || c == '\U{00A0}' || c == '\U{1680}'
    || ('\U{2000}' <= c <= '\U{200A}')
    || c == '\U{2028}' || c == '\U{2029}' || c == '\U{202F}' || c == '\U{205F}'
    || c == '\U{3000}' || c == '\U{FEFF}'
  }

  predicate AllSpace(s: string) {
    forall k :: 0 <= k < |s| ==> IsSpace(s[k])
  }

  /** `pat` occurs in `s` starting at index `k`. */
  predicate OccursAt(s: string, pat: string, k: int) {
    0 <= k && k + |pat| <= |s| && s[k..k + |pat|] == pat
  }

  /** `s.indexOf(pat)`: the first index at which `pat` occurs, or None for -1. */
  function FindFirst(s: string, pat: string): (r: Option<nat>)
    ensures r.Some? ==> OccursAt(s, pat, r.value)
    ensures r.Some? ==> forall k :: 0 <= k < r.value ==> !OccursAt(s, pat, k)
    ensures r.None? ==> forall k :: !OccursAt(s, pat, k)
    decreases |s|
  {
    if |s| < |pat| then None
    else if s[..|pat|] == pat then Some(0)
    else
      var rest := FindFirst(s[1..], pat);
      assert !OccursAt(s, pat, 0) by {
        assert s[0..|pat|] == s[..|pat|];
      }
      assert forall k :: 1 <= k ==> (OccursAt(s, pat, k) <==> OccursAt(s[1..], pat, k - 1)) by {
        forall k | 1 <= k
          ensures OccursAt(s, pat, k) <==> OccursAt(s[1..], pat, k - 1)
        {
          if k + |pat| <= |s| {
            assert s[1..][k - 1..k - 1 + |pat|] == s[k..k + |pat|];
          }
        }
      }
      match rest
      case None => None
      case Some(i) => Some(i + 1)
  }

  /** `s.includes(pat)`. */
  function Contains(s: string, pat: string): (r: bool)
    ensures r <==> exists k :: OccursAt(s, pat, k)
  {
    FindFirst(s, pat).Some?
  }

  /** A one-character pattern occurs exactly where its character does. */
  lemma ContainsChar(s: string, c: char)
    ensures Contains(s, [c]) <==> c in s
  {
    if c in s {
      var k :| 0 <= k < |s| && s[k] == c;
      assert OccursAt(s, [c], k) by {
        assert s[k..k + 1] == [c];
      }
    }
    if Contains(s, [c]) {
      var k :| OccursAt(s, [c], k);
      assert s[k] == s[k..k + 1][0];
    }
  }

  /** `s.startsWith(p)`. */
  predicate StartsWith(s: string, p: string) {
    |p| <= |s| && s[..|p|] == p
  }

  /** The inverse of `Split`: the parts glued back together with `sep`. */
  function Join(parts: seq<string>, sep: string): string
    decreases |parts|
  {
    if |parts| == 0 then ""
    else if |parts| == 1 then parts[0]
    else parts[0] + sep + Join(parts[1..], sep)
  }

  /** `s.split(sep)` for a non-empty string separator: cut at every occurrence,
      scanning from the left, so that `Join` gives `s` back (and, by `SplitAvoids`,
      no part holds `sep`). */
  function Split(s: string, sep: string): (r: seq<string>)
    requires |sep| > 0
    ensures |r| >= 1
    ensures Join(r, sep) == s
    decreases |s|
  {
    match FindFirst(s, sep)
    case None => [s]
    case Some(i) =>
      var head, tail := s[..i], s[i + |sep|..];
      assert s == head + sep + tail by {
        assert s == s[..i] + s[i..i + |sep|] + s[i + |sep|..];
      }
      [head] + Split(tail, sep)
  }

  /** No part of a list holds `sep`. */
  predicate NoneContains(parts: seq<string>, sep: string) {
    forall i :: 0 <= i < |parts| ==> !Contains(parts[i], sep)
  }

  /** No part of a split holds the separator. */
  lemma {:induction false} SplitAvoids(s: string, sep: string)
    requires |sep| > 0
    ensures NoneContains(Split(s, sep), sep)
    decreases |s|
  {
    match FindFirst(s, sep)
    case None =>
      assert Split(s, sep) == [s];
    case Some(i) =>
      var head, tail := s[..i], s[i + |sep|..];
      SplitAvoids(tail, sep);
      PrefixAvoids(s, sep, i);
      ConsAvoids(head, Split(tail, sep), sep);
      assert Split(s, sep) == [head] + Split(tail, sep);
  }

  /** Text before the first occurrence of `sep` does not hold `sep`. */
  lemma PrefixAvoids(s: string, sep: string, i: nat)
    requires |sep| > 0 && i <= |s|
    requires forall k :: 0 <= k < i ==> !OccursAt(s, sep, k)
    ensures !Contains(s[..i], sep)
  {
    forall k | OccursAt(s[..i], sep, k) ensures false {
      assert s[k..k + |sep|] == s[..i][k..k + |sep|];
      assert OccursAt(s, sep, k);
    }
  }

  lemma ConsAvoids(head: string, parts: seq<string>, sep: string)
    requires !Contains(head, sep) && NoneContains(parts, sep)
    ensures NoneContains([head] + parts, sep)
  {
    forall i | 0 <= i < |[head] + parts| ensures !Contains(([head] + parts)[i], sep) {
      if i > 0 {
        assert ([head] + parts)[i] == parts[i - 1];
      }
    }
  }

  /** `v` is the text between the first `sep` of `s` and the next one, or the end. */
  predicate SecondPiece(s: string, sep: string, v: string) {
    match FindFirst(s, sep)
    case None => false
    case Some(i) =>
      var rest := s[i + |sep|..];
      StartsWith(rest, v) && (|v| == |rest| || OccursAt(rest, sep, |v|))
  }

  /** A split has a second part exactly when `sep` occurs, and that part is the
      text between the first `sep` and the next one. */
  lemma SplitSecond(s: string, sep: string)
    requires |sep| > 0
    ensures |Split(s, sep)| >= 2 <==> FindFirst(s, sep).Some?
    ensures |Split(s, sep)| >= 2 ==> !Contains(Split(s, sep)[1], sep) && SecondPiece(s, sep, Split(s, sep)[1])
  {
    SplitAvoids(s, sep);
    match FindFirst(s, sep)
    case None =>
    case Some(i) =>
      var rest := s[i + |sep|..];
      SplitHead(rest, sep);
      assert Split(s, sep)[1] == Split(rest, sep)[0];
  }

  /** The first part of a split is the text before the first `sep`, or all of `s`. */
  lemma SplitHead(s: string, sep: string)
    requires |sep| > 0
    ensures StartsWith(s, Split(s, sep)[0])
    ensures |Split(s, sep)[0]| == |s| || OccursAt(s, sep, |Split(s, sep)[0]|)
  {
    match FindFirst(s, sep)
    case None =>
    case Some(i) =>
      assert Split(s, sep)[0] == s[..i];
  }

  /** `Join` peels off its last part as well as its first. */
  lemma {:induction false} JoinLast(parts: seq<string>, sep: string)
    requires |parts| > 1
    ensures Join(parts, sep) == Join(parts[..|parts| - 1], sep) + sep + parts[|parts| - 1]
    decreases |parts|
  {
    if |parts| > 2 {
      JoinLast(parts[1..], sep);
      assert parts[1..][..|parts| - 2] == parts[..|parts| - 1][1..];
    }
  }

  /** The last element of `Split(s, sep)` is the suffix after the last `sep`,
      or the whole of `s` when `sep` does not occur. */
  lemma SplitLast(s: string, sep: string, r: seq<string>, p: string)
    requires |sep| > 0
    requires r == Split(s, sep) && p == r[|r| - 1]
    ensures |p| <= |s| && p == s[|s| - |p|..]
    ensures !Contains(p, sep)
    ensures |r| > 1 ==> |p| + |sep| <= |s| && s[|s| - |p| - |sep|..|s| - |p|] == sep
    ensures |r| == 1 ==> p == s
  {
    SplitAvoids(s, sep);
    if |r| > 1 {
      JoinLast(r, sep);
      var j := Join(r[..|r| - 1], sep);
      assert s == j + sep + p;
      assert s[|s| - |p|..] == p;
      assert s[|s| - |p| - |sep|..|s| - |p|] == sep;
    } else {
      assert r == [p];
    }
  }

  /** For a one-character separator: the last piece avoids that character and,
      when there are several pieces, directly follows it. */
  lemma SplitLastChar(s: string, c: char, r: seq<string>, p: string)
    requires r == Split(s, [c]) && p == r[|r| - 1]
    ensures |p| <= |s| && p == s[|s| - |p|..] && c !in p
    ensures |r| > 1 ==> |p| + 1 <= |s| && s[|s| - |p| - 1] == c
    ensures |r| == 1 ==> p == s
  {
    SplitLast(s, [c], r, p);
    LastPieceChar(s, c, p, |r| > 1);
  }

  /** A suffix that avoids the one-character pattern `[c]` and, when `cut`, follows it:
      stated character by character. */
  lemma LastPieceChar(s: string, c: char, p: string, cut: bool)
    requires |p| <= |s| && p == s[|s| - |p|..] && !Contains(p, [c])
    requires cut ==> |p| + |[c]| <= |s| && s[|s| - |p| - |[c]|..|s| - |p|] == [c]
    requires !cut ==> p == s
    ensures c !in p
    ensures cut ==> |p| + 1 <= |s| && s[|s| - |p| - 1] == c
  {
    ContainsChar(p, c);
    if cut {
      var i := |s| - |p| - 1;
      assert s[i..i + 1] == [c];
      SliceChar(s, i, i + 1, c);
    }
  }

  /** A one-character slice names the character at its index. */
  lemma SliceChar(s: string, i: int, j: int, c: char)
    requires 0 <= i <= j <= |s| && s[i..j] == [c]
    ensures j == i + 1 && s[i] == c
  {
    assert s[i] == s[i..j][0];
  }

  /** Splitting on a one-character separator undoes `Join` when no part holds that character. */
  lemma {:induction false} SplitJoin(parts: seq<string>, sep: string)
    requires |sep| == 1 && |parts| >= 1
    requires forall i :: 0 <= i < |parts| ==> sep[0] !in parts[i]
    ensures Split(Join(parts, sep), sep) == parts
    decreases |parts|
  {
    var s := Join(parts, sep);
    if |parts| == 1 {
      forall k | OccursAt(s, sep, k) ensures false {
      }
      assert FindFirst(s, sep).None?;
    } else {
      var tail := Join(parts[1..], sep);
      assert s == parts[0] + sep + tail;
      var n := |parts[0]|;
      assert OccursAt(s, sep, n) by {
        assert s[n..n + 1] == sep;
      }
      forall k | 0 <= k < n ensures !OccursAt(s, sep, k) {
        assert s[k] == parts[0][k];
      }
      assert FindFirst(s, sep) == Some(n);
      assert s[..n] == parts[0];
      assert s[n + 1..] == tail;
      SplitJoin(parts[1..], sep);
    }
  }

  /** A string built by `Join` holds a character only if some part or the separator does. */
  lemma {:induction false} JoinAvoids(parts: seq<string>, sep: string, c: char)
    requires c !in sep
    requires forall i :: 0 <= i < |parts| ==> c !in parts[i]
    ensures c !in Join(parts, sep)
    decreases |parts|
  {
    if |parts| > 1 {
      JoinAvoids(parts[1..], sep, c);
    }
  }

  function TrimStart(s: string): (r: string)
    ensures |r| <= |s| && r == s[|s| - |r|..]
    ensures AllSpace(s[..|s| - |r|])
    ensures |r| > 0 ==> !IsSpace(r[0])
    decreases |s|
  {
    if |s| > 0 && IsSpace(s[0]) then
      var r := TrimStart(s[1..]);
      SpaceThenPrefix(s, |s| - |r|);
      r
    else s
  }

  function TrimEnd(s: string): (r: string)
    ensures |r| <= |s| && r == s[..|r|]
    ensures AllSpace(s[|r|..])
    ensures |r| > 0 ==> !IsSpace(r[|r| - 1])
    decreases |s|
  {
    if |s| > 0 && IsSpace(s[|s| - 1]) then
      var r := TrimEnd(s[..|s| - 1]);
      SuffixThenSpace(s, |r|);
      r
    else s
  }

  /** A space followed by a run of white space is a run of white space. */
  lemma SpaceThenPrefix(s: string, n: int)
    requires 0 < n <= |s| && IsSpace(s[0]) && AllSpace(s[1..][..n - 1])
    ensures AllSpace(s[..n])
  {
    forall k | 0 < k < n ensures IsSpace(s[k]) {
      assert s[k] == s[1..][..n - 1][k - 1];
    }
  }

  /** A run of white space followed by a space is a run of white space. */
  lemma SuffixThenSpace(s: string, n: int)
    requires 0 <= n < |s| && IsSpace(s[|s| - 1]) && AllSpace(s[..|s| - 1][n..])
    ensures AllSpace(s[n..])
  {
    forall k | n <= k < |s| - 1 ensures IsSpace(s[k]) {
      assert s[k] == s[..|s| - 1][n..][k - n];
    }
  }

  /** `s.trim()`: the middle of `s` once the white space at both ends is cut away
      (`TrimSpec` states which middle). */
  function Trim(s: string): (r: string)
    ensures |r| <= |s|
    ensures |r| > 0 ==> !IsSpace(r[0]) && !IsSpace(r[|r| - 1])
  {
    TrimEnd(TrimStart(s))
  }

  /** `r` is the slice of `s` from `i` with only white space around it. */
  predicate TrimmedAt(s: string, r: string, i: int) {
    && 0 <= i <= |s| - |r| && r == s[i..i + |r|]
    && AllSpace(s[..i]) && AllSpace(s[i + |r|..])
  }

  /** `Trim(s)` is a slice of `s` with only white space around it. */
  lemma TrimSpec(s: string)
    ensures exists i :: TrimmedAt(s, Trim(s), i)
  {
    var a := TrimStart(s);
    var r := TrimEnd(a);
    var i := |s| - |a|;
    assert Trim(s) == r;
    TrimmedFrom(s, a, r, i);
  }

  /** Cutting white space off the front and then off the back of the rest leaves a
      slice with only white space around it. */
  lemma TrimmedFrom(s: string, a: string, r: string, i: int)
    requires 0 <= i <= |s| && AllSpace(s[..i]) && a == s[i..]
    requires |r| <= |a| && r == a[..|r|] && AllSpace(a[|r|..])
    ensures TrimmedAt(s, r, i)
  {
    SuffixPrefix(s, a, r, i);
  }

  /** A prefix `r` of the suffix `a` of `s` from `i` is the slice of `s` from `i`,
      and what follows `r` in `a` is what follows it in `s`. */
  lemma SuffixPrefix(s: string, a: string, r: string, i: int)
    requires 0 <= i <= |s| && a == s[i..] && |r| <= |a| && r == a[..|r|]
    ensures i + |r| <= |s| && r == s[i..i + |r|] && s[i + |r|..] == a[|r|..]
  {
  }

  /** Trimming a string that has no white space at either end changes nothing;
      in particular `Trim` is idempotent. */
  lemma TrimNoEdges(s: string)
    requires |s| > 0 ==> !IsSpace(s[0]) && !IsSpace(s[|s| - 1])
    ensures Trim(s) == s
  {
    TrimSpec(s);
    var r := Trim(s);
    var i :| TrimmedAt(s, r, i);
  }

  lemma TrimIdempotent(s: string)
    ensures Trim(Trim(s)) == Trim(s)
  {
    TrimNoEdges(Trim(s));
  }

  /** The upper-case letters `toLowerCase` maps in this model: ASCII A-Z and
      the Latin-1 capitals (U+00C0 to U+00DE except the multiplication sign). */
  predicate IsUpper(c: char) {
    ('A' <= c <= 'Z') || ('\U{00C0}' <= c <= '\U{00DE}' && c != '\U{00D7}')
  }

  function LowerChar(c: char): (r: char)
    ensures !IsUpper(r)
    ensures IsUpper(c) ==> r as int == c as int + 32
    ensures !IsUpper(c) ==> r == c
  {
    if IsUpper(c) then (c as int + 32) as char else c
  }

  /** `s.toLowerCase()`, character by character. */
  function ToLower(s: string): (r: string)
    ensures |r| == |s|
    ensures forall k :: 0 <= k < |r| ==> !IsUpper(r[k])
    ensures forall k :: 0 <= k < |s| && !IsUpper(s[k]) ==> r[k] == s[k]
    ensures forall k :: 0 <= k < |s| && IsUpper(s[k]) ==> r[k] as int == s[k] as int + 32
  {
    seq(|s|, k requires 0 <= k < |s| => LowerChar(s[k]))
  }

  lemma ToLowerIdempotent(s: string)
    ensures ToLower(ToLower(s)) == ToLower(s)
  {
  }

}

=== FILE: options.dfy ===
/** An optional value: the model's rendering of JavaScript's `undefined` and `NaN` results. */
module Options {

  datatype Option<+T> = None | Some(value: T)

}

=== FILE: search.dfy ===
/**
 The search box over the seating map: per table, the guests whose lower-cased
 name contains the lower-cased term, and only the tables where someone matches.
 */
module Search {

  import opened JsString
  import opened Seating

  /** `convidado.name.toLowerCase().includes(termo.toLowerCase())`. */
  function Matches(g: Guest, term: string): (b: bool)
    ensures b <==> exists k :: OccursAt(ToLower(g.name), ToLower(term), k)
    ensures b ==> |term| <= |g.name|
  {
    Contains(ToLower(g.name), ToLower(term))
  }

  function Matcher(term: string): Guest -> bool {
    g => Matches(g, term)
  }

  /** `Array.prototype.filter`: the guests `keep` accepts, each kept as many times
      as it occurs and nothing else. */
  function Filter(gs: seq<Guest>, keep: Guest -> bool): (r: seq<Guest>)
    ensures |r| <= |gs|
    ensures forall g :: g in r <==> g in gs && keep(g)
    decreases |gs|
  {
    if |gs| == 0 then []
    else (if keep(gs[0]) then [gs[0]] else []) + Filter(gs[1..], keep)
  }

  /** Each accepted guest is kept as many times as it occurs, and no other guest is kept. */
  lemma {:induction false} FilterMultiset(gs: seq<Guest>, keep: Guest -> bool)
    ensures forall g :: multiset(Filter(gs, keep))[g] == if keep(g) then multiset(gs)[g] else 0
    decreases |gs|
  {
    if |gs| > 0 {
      FilterMultiset(gs[1..], keep);
      assert gs == [gs[0]] + gs[1..];
    }
  }

  /** `r` is `s` with some elements left out, the rest in their original order. */
  predicate IsSubsequence<T(==)>(r: seq<T>, s: seq<T>)
    decreases |s|
  {
    |r| == 0 || (|s| > 0 && if r[0] == s[0] then IsSubsequence(r[1..], s[1..]) else IsSubsequence(r, s[1..]))
  }

  /** The filter keeps the survivors in their original order. */
  lemma {:induction false} FilterSubsequence(gs: seq<Guest>, keep: Guest -> bool)
    ensures IsSubsequence(Filter(gs, keep), gs)
    decreases |gs|
  {
    if |gs| > 0 {
      FilterSubsequence(gs[1..], keep);
      var r := Filter(gs, keep);
      if keep(gs[0]) {
        assert r[1..] == Filter(gs[1..], keep);
      } else if |r| > 0 {
        assert r == Filter(gs[1..], keep);
        assert r[0] in r;
        assert r[0] != gs[0];
      }
    }
  }

  /** The filter works guest by guest: filtering a concatenation concatenates the filtered parts. */
  lemma {:induction false} FilterAppend(a: seq<Guest>, b: seq<Guest>, keep: Guest -> bool)
    ensures Filter(a + b, keep) == Filter(a, keep) + Filter(b, keep)
    decreases |a|
  {
    if |a| > 0 {
      assert (a + b)[1..] == a[1..] + b;
      FilterAppend(a[1..], b, keep);
    } else {
      assert a + b == b;
    }
  }

  /** Two tests that agree on every guest filter alike. */
  lemma {:induction false} FilterSame(gs: seq<Guest>, keep: Guest -> bool, keep': Guest -> bool)
    requires forall g :: keep(g) == keep'(g)
    ensures Filter(gs, keep) == Filter(gs, keep')
    decreases |gs|
  {
    if |gs| > 0 {
      FilterSame(gs[1..], keep, keep');
    }
  }

  /** A test that accepts everyone keeps the list whole. */
  lemma {:induction false} FilterAll(gs: seq<Guest>, keep: Guest -> bool)
    requires forall g :: keep(g)
    ensures Filter(gs, keep) == gs
    decreases |gs|
  {
    if |gs| > 0 {
      FilterAll(gs[1..], keep);
      assert gs == [gs[0]] + gs[1..];
    }
  }

  lemma {:induction false} FilterIdempotent(gs: seq<Guest>, keep: Guest -> bool)
    ensures Filter(Filter(gs, keep), keep) == Filter(gs, keep)
    decreases |gs|
  {
    if |gs| > 0 {
      FilterIdempotent(gs[1..], keep);
      var r := Filter(gs, keep);
      if keep(gs[0]) {
        assert r[0] == gs[0];
        assert r[1..] == Filter(gs[1..], keep);
      } else {
        assert r == Filter(gs[1..], keep);
      }
    }
  }

  /** The reduce over the tables: each table's guests that `keep` accepts, for the
      tables where it accepts at least one. */
  function Select(m: SeatingMap, keep: Guest -> bool): (r: SeatingMap)
    ensures forall t :: t in r ==> t in m && |r[t]| > 0
    ensures forall t :: t in r ==> r[t] == Filter(m[t], keep)
  {
    map t | t in m && |Filter(m[t], keep)| > 0 :: Filter(m[t], keep)
  }

  /** `convidadosFiltrados`: each table's matching guests, for the tables where at
      least one guest matches (`SearchKeys` states which tables those are). */
  function Search(m: SeatingMap, term: string): (r: SeatingMap)
    ensures forall t :: t in r ==> t in m && |r[t]| > 0
    ensures forall t :: t in r ==> r[t] == Filter(m[t], Matcher(term))
  {
    Select(m, Matcher(term))
  }

  /** A table survives the search exactly when one of its guests matches. */
  lemma SearchKeys(m: SeatingMap, term: string, t: int)
    ensures t in Search(m, term) <==> t in m && exists g :: g in m[t] && Matches(g, term)
  {
    if t in m && exists g :: g in m[t] && Matches(g, term) {
      var g :| g in m[t] && Matches(g, term);
      assert g in Filter(m[t], Matcher(term));
    }
    if t in Search(m, term) {
      var g := Search(m, term)[t][0];
      assert g in Filter(m[t], Matcher(term));
      assert Matcher(term)(g);
    }
  }

  /** Every table of the result lists a non-empty, order-preserving selection of that
      table's guests, each of which matches; the guest records themselves are unchanged. */
  lemma SearchSubsequence(m: SeatingMap, term: string, t: int)
    requires t in Search(m, term)
    ensures t in m && |Search(m, term)[t]| > 0
    ensures IsSubsequence(Search(m, term)[t], m[t])
    ensures forall g :: g in Search(m, term)[t] ==> g in m[t] && Matches(g, term)
  {
    FilterSubsequence(m[t], Matcher(term));
  }

  /** Every name contains the empty term. */
  lemma EmptyTermMatches(g: Guest)
    ensures Matches(g, "")
  {
    assert OccursAt(ToLower(g.name), ToLower(""), 0);
  }

  /** An empty term keeps every non-empty table whole and drops the empty ones. */
  lemma EmptyTerm(m: SeatingMap)
    ensures Search(m, "") == map t | t in m && |m[t]| > 0 :: m[t]
  {
    forall g ensures Matcher("")(g) {
      EmptyTermMatches(g);
    }
    forall t | t in m {
      FilterAll(m[t], Matcher(""));
    }
  }

  /** Searching the result of a search again with the same term changes nothing. */
  lemma SearchIdempotent(m: SeatingMap, term: string)
    ensures Search(Search(m, term), term) == Search(m, term)
  {
    SelectIdempotent(m, Matcher(term));
  }

  lemma SelectIdempotent(m: SeatingMap, keep: Guest -> bool)
    ensures Select(Select(m, keep), keep) == Select(m, keep)
  {
    var r := Select(m, keep);
    var rr := Select(r, keep);
    forall t | t in r ensures t in rr && rr[t] == r[t] {
      FilterIdempotent(m[t], keep);
    }
    MapsEqual(rr, r);
  }

  /** The search ignores letter case in the term. */
  lemma SearchIgnoresCase(m: SeatingMap, term: string)
    ensures Search(m, ToLower(term)) == Search(m, term)
  {
    ToLowerIdempotent(term);
    forall t | t in m {
      FilterSame(m[t], Matcher(ToLower(term)), Matcher(term));
    }
  }

  /** Taking a table out before selecting is taking it out of the result. */
  lemma SelectRemove(m: SeatingMap, keep: Guest -> bool, k: int)
    ensures Select(m - {k}, keep) == Select(m, keep) - {k}
  {
    var a, b := Select(m - {k}, keep), Select(m, keep) - {k};
    forall t ensures (t in a <==> t in b) && (t in a ==> a[t] == b[t]) {
    }
    MapsEqual(a, b);
  }

  lemma RemoveAbsent(m: SeatingMap, k: int)
    requires k !in m
    ensures m - {k} == m
  {
  }

  /** How many guests of one table `keep` accepts. */
  function Kept(keep: Guest -> bool): seq<Guest> -> nat {
    gs => |Filter(gs, keep)|
  }

  /** The selection holds, over all tables, exactly the accepted guests. */
  lemma {:induction false} SelectTotal(m: SeatingMap, keep: Guest -> bool)
    ensures TotalGuests(Select(m, keep)) == SumOver(m, Kept(keep))
    decreases |m|
  {
    if |m| > 0 {
      var k := PickKey(m);
      var rest := m - {k};
      var r := Select(m, keep);
      SelectTotal(rest, keep);
      SelectRemove(m, keep, k);
      assert SumOver(m, Kept(keep)) == Kept(keep)(m[k]) + SumOver(rest, Kept(keep));
      if k in r {
        SumOverRemove(r, Size, k);
      } else {
        assert Kept(keep)(m[k]) == 0;
        RemoveAbsent(r, k);
      }
    }
  }

  /** The search result holds, over all tables, exactly the matching guests. */
  lemma SearchTotal(m: SeatingMap, term: string)
    ensures TotalGuests(Search(m, term)) == SumOver(m, Kept(Matcher(term)))
  {
    SelectTotal(m, Matcher(term));
  }

}

=== FILE: seat_graph.dfy ===
/**
 The graph view of the seating map: a node per table and per guest, a "mesa"
 link from each table to each of its guests, and a "together" or "apart" link
 from a guest to every guest a directive of theirs names; then the styling the
 drawing gives each kind of link and node.
 */
module SeatGraph {

  import opened Options
  import opened JsString
  import opened JsNumber
  import opened Seating

  datatype LinkType = Mesa | Together | Apart

  /** The `type` string a link carries. */
  function TypeName(k: LinkType): string {
    match k
    case Mesa => "mesa"
    case Together => "together"
    case Apart => "apart"
  }

  datatype Link = Link(source: string, target: string, kind: LinkType)

  datatype Node =
    | TableNode(id: string, name: string)
    | GuestNode(id: string, name: string, mesaId: string)

  /** The `group` string a node carries. */
  function GroupName(n: Node): string {
    if n.TableNode? then "mesa" else "convidado"
  }

  /** The object key a table number becomes. */
  function TableKey(t: int): string {
    IntToString(t)
  }

  function TableId(t: int): string {
    "mesa-" + TableKey(t)
  }

  function TableName(t: int): string {
    "Mesa " + TableKey(t)
  }

  function GuestId(name: string): string {
    "convidado-" + name
  }

  /** Distinct tables get distinct node ids: the key reads back as its number. */
  lemma TableIdInjective(t: int, u: int)
    requires TableId(t) == TableId(u)
    ensures t == u
  {
    assert TableKey(t) == TableId(t)[5..];
    assert TableKey(u) == TableId(u)[5..];
    ParseIntRoundTrip(t);
    ParseIntRoundTrip(u);
  }

  /** `relacionamento.split(": ")[1]`: the text between the first `": "` and the next
      one, or None (`undefined`) when the directive holds no `": "`. */
  function Target(d: string): (r: Option<string>)
    ensures r.Some? <==> Contains(d, ": ")
    ensures r.Some? ==> !Contains(r.value, ": ") && SecondPiece(d, ": ", r.value)
  {
    var parts := Split(d, ": ");
    SplitSecond(d, ": ");
    if |parts| >= 2 then Some(parts[1]) else None
  }

  /** Together when the directive mentions "Junto com" anywhere, Apart otherwise. */
  function KindOf(d: string): (k: LinkType)
    ensures k != Mesa
    ensures k == Together <==> exists i :: OccursAt(d, "Junto com", i)
  {
    if Contains(d, "Junto com") then Together else Apart
  }

  /** Some guest in the list carries this name. */
  predicate Named(all: seq<Guest>, x: string) {
    exists g :: g in all && g.name == x
  }

  /** `.find((c) => c.name === outroConvidado)`: the first guest with the name, if any. */
  function Find(all: seq<Guest>, name: Option<string>): (r: Option<Guest>)
    ensures r.Some? <==> name.Some? && Named(all, name.value)
    ensures r.Some? ==> r.value in all && r.value.name == name.value
    decreases |all|
  {
    if |all| == 0 || name.None? then None
    else if all[0].name == name.value then Some(all[0])
    else
      var rest := Find(all[1..], name);
      assert Named(all, name.value) <==> Named(all[1..], name.value) by {
        if Named(all, name.value) {
          var g :| g in all && g.name == name.value;
          assert g in all[1..] by {
            assert g != all[0];
          }
        }
      }
      rest
  }

  /** A directive names an existing guest. */
  predicate Resolves(d: string, all: seq<Guest>) {
    Target(d).Some? && Named(all, Target(d).value)
  }

  /** The link one directive of guest `from` produces: one when its target resolves, none otherwise. */
  function DirectiveLink(from: string, d: string, all: seq<Guest>): (r: Option<Link>)
    ensures r.Some? <==> Resolves(d, all)
    ensures r.Some? ==> r.value == Link(GuestId(from), GuestId(Target(d).value), KindOf(d))
  {
    match Find(all, Target(d))
    case None => None
    case Some(other) => Some(Link(GuestId(from), GuestId(other.name), KindOf(d)))
  }

  /** The number of directives that resolve. */
  function CountResolvable(rels: seq<string>, all: seq<Guest>): nat
    decreases |rels|
  {
    if |rels| == 0 then 0
    else (if Resolves(rels[0], all) then 1 else 0) + CountResolvable(rels[1..], all)
  }

  /** The number of links of one kind. */
  function CountKind(links: seq<Link>, k: LinkType): nat
    decreases |links|
  {
    if |links| == 0 then 0
    else (if links[0].kind == k then 1 else 0) + CountKind(links[1..], k)
  }

  lemma {:induction false} CountKindAppend(a: seq<Link>, b: seq<Link>, k: LinkType)
    ensures CountKind(a + b, k) == CountKind(a, k) + CountKind(b, k)
    decreases |a|
  {
    if |a| > 0 {
      assert (a + b)[1..] == a[1..] + b;
      CountKindAppend(a[1..], b, k);
    } else {
      assert a + b == b;
    }
  }

  /** The links of one guest's directives, in directive order: one per resolving directive,
      all from that guest and none of them a table link. */
  function RelationshipLinks(from: string, rels: seq<string>, all: seq<Guest>): (r: seq<Link>)
    ensures |r| == CountResolvable(rels, all)
    ensures CountKind(r, Mesa) == 0
    ensures forall l :: l in r ==> l.source == GuestId(from) && l.kind != Mesa
    decreases |rels|
  {
    if |rels| == 0 then []
    else
      var rest := RelationshipLinks(from, rels[1..], all);
      match DirectiveLink(from, rels[0], all)
      case None => rest
      case Some(l) => [l] + rest
  }

  /** `l` is the link that directive `d` of guest `from` produces. */
  predicate LinkOf(from: string, d: string, all: seq<Guest>, l: Link) {
    Resolves(d, all) && l == Link(GuestId(from), GuestId(Target(d).value), KindOf(d))
  }

  /** A guest's links are exactly the links its resolving directives produce: each
      points at the guest the directive names and carries the directive's kind. */
  lemma RelationshipLinksContents(from: string, rels: seq<string>, all: seq<Guest>)
    ensures forall l :: l in RelationshipLinks(from, rels, all) <==>
      exists k :: 0 <= k < |rels| && LinkOf(from, rels[k], all, l)
  {
    forall l | l in RelationshipLinks(from, rels, all)
      ensures exists k :: 0 <= k < |rels| && LinkOf(from, rels[k], all, l)
    {
      RelationshipLinksFrom(from, rels, all, l);
    }
    forall l | exists k :: 0 <= k < |rels| && LinkOf(from, rels[k], all, l)
      ensures l in RelationshipLinks(from, rels, all)
    {
      var k :| 0 <= k < |rels| && LinkOf(from, rels[k], all, l);
      RelationshipLinksHas(from, rels, all, k);
    }
  }

  /** Each resolving directive yields its link. */
  lemma {:induction false} RelationshipLinksHas(from: string, rels: seq<string>, all: seq<Guest>, k: int)
    requires 0 <= k < |rels| && Resolves(rels[k], all)
    ensures Link(GuestId(from), GuestId(Target(rels[k]).value), KindOf(rels[k])) in RelationshipLinks(from, rels, all)
    decreases |rels|
  {
    var rest := RelationshipLinks(from, rels[1..], all);
    if k == 0 {
      assert DirectiveLink(from, rels[0], all).Some?;
    } else {
      assert rels[1..][k - 1] == rels[k];
      RelationshipLinksHas(from, rels[1..], all, k - 1);
      assert rest <= RelationshipLinks(from, rels, all) || rest == RelationshipLinks(from, rels, all)[1..];
    }
  }

  /** Each link of a guest comes from one of its resolving directives. */
  lemma {:induction false} RelationshipLinksFrom(from: string, rels: seq<string>, all: seq<Guest>, l: Link)
    requires l in RelationshipLinks(from, rels, all)
    ensures exists k :: 0 <= k < |rels| && LinkOf(from, rels[k], all, l)
    decreases |rels|
  {
    var rest := RelationshipLinks(from, rels[1..], all);
    if l in rest {
      RelationshipLinksFrom(from, rels[1..], all, l);
      var k :| 0 <= k < |rels[1..]| && LinkOf(from, rels[1..][k], all, l);
      assert rels[1..][k] == rels[k + 1];
      assert LinkOf(from, rels[k + 1], all, l);
    } else {
      assert DirectiveLink(from, rels[0], all) == Some(l);
      assert LinkOf(from, rels[0], all, l);
    }
  }

  /** The resolving directives of a list of guests, all together. */
  function ResolvableOf(gs: seq<Guest>, all: seq<Guest>): nat
    decreases |gs|
  {
    if |gs| == 0 then 0 else CountResolvable(gs[0].relationships, all) + ResolvableOf(gs[1..], all)
  }

  function Resolvable(all: seq<Guest>): seq<Guest> -> nat {
    gs => ResolvableOf(gs, all)
  }

  function MesaLink(t: int, g: Guest): Link {
    Link(TableId(t), GuestId(g.name), Mesa)
  }

  /** The links made for the guests of table `t`: for each guest in order, its table
      link and then its directive links. */
  function TableLinks(t: int, gs: seq<Guest>, all: seq<Guest>): (r: seq<Link>)
    ensures |r| == |gs| + ResolvableOf(gs, all)
    ensures CountKind(r, Mesa) == |gs|
    decreases |gs|
  {
    if |gs| == 0 then []
    else
      var g := gs[0];
      var own := [MesaLink(t, g)] + RelationshipLinks(g.name, g.relationships, all);
      var rest := TableLinks(t, gs[1..], all);
      CountKindAppend([MesaLink(t, g)], RelationshipLinks(g.name, g.relationships, all), Mesa);
      CountKindAppend(own, rest, Mesa);
      own + rest
  }

  /** Each guest of the table gets its table link. */
  lemma {:induction false} TableLinksHasMesa(t: int, gs: seq<Guest>, all: seq<Guest>, i: int)
    requires 0 <= i < |gs|
    ensures MesaLink(t, gs[i]) in TableLinks(t, gs, all)
    decreases |gs|
  {
    var own := [MesaLink(t, gs[0])] + RelationshipLinks(gs[0].name, gs[0].relationships, all);
    var rest := TableLinks(t, gs[1..], all);
    assert TableLinks(t, gs, all) == own + rest;
    if i > 0 {
      TableLinksHasMesa(t, gs[1..], all, i - 1);
    }
  }

  /** Every table link of the table comes from one of its guests. */
  lemma {:induction false} TableLinksMesaFrom(t: int, gs: seq<Guest>, all: seq<Guest>, l: Link)
    requires l in TableLinks(t, gs, all) && l.kind == Mesa
    ensures exists i :: 0 <= i < |gs| && l == MesaLink(t, gs[i])
    decreases |gs|
  {
    var rels := RelationshipLinks(gs[0].name, gs[0].relationships, all);
    var rest := TableLinks(t, gs[1..], all);
    assert TableLinks(t, gs, all) == [MesaLink(t, gs[0])] + rels + rest;
    if l == MesaLink(t, gs[0]) {
      assert 0 < |gs|;
    } else if l in rest {
      TableLinksMesaFrom(t, gs[1..], all, l);
      var i :| 0 <= i < |gs[1..]| && l == MesaLink(t, gs[1..][i]);
      assert l == MesaLink(t, gs[i + 1]);
    } else {
      assert false;
    }
  }

  /** The directive links of each guest of the table are among the table's links. */
  lemma {:induction false} TableLinksHasDirective(t: int, gs: seq<Guest>, all: seq<Guest>, i: int, l: Link)
    requires 0 <= i < |gs| && l in RelationshipLinks(gs[i].name, gs[i].relationships, all)
    ensures l in TableLinks(t, gs, all)
    decreases |gs|
  {
    var rels := RelationshipLinks(gs[0].name, gs[0].relationships, all);
    var rest := TableLinks(t, gs[1..], all);
    assert TableLinks(t, gs, all) == [MesaLink(t, gs[0])] + rels + rest;
    if i > 0 {
      assert gs[1..][i - 1] == gs[i];
      TableLinksHasDirective(t, gs[1..], all, i - 1, l);
    }
  }

  /** Every link of the table that is not a table link is a directive link of one of its guests. */
  lemma {:induction false} TableLinksDirectiveFrom(t: int, gs: seq<Guest>, all: seq<Guest>, l: Link)
    requires l in TableLinks(t, gs, all) && l.kind != Mesa
    ensures exists i :: 0 <= i < |gs| && l in RelationshipLinks(gs[i].name, gs[i].relationships, all)
    decreases |gs|
  {
    var rels := RelationshipLinks(gs[0].name, gs[0].relationships, all);
    var rest := TableLinks(t, gs[1..], all);
    assert TableLinks(t, gs, all) == [MesaLink(t, gs[0])] + rels + rest;
    if l in rels {
      assert 0 < |gs|;
    } else {
      TableLinksDirectiveFrom(t, gs[1..], all, l);
      var i :| 0 <= i < |gs[1..]| && l in RelationshipLinks(gs[1..][i].name, gs[1..][i].relationships, all);
      assert gs[1..][i] == gs[i + 1];
    }
  }

  /** The links of the tables walked in `order`. */
  function LinksAlong(m: SeatingMap, order: seq<int>, all: seq<Guest>): (r: seq<Link>)
    requires forall i :: 0 <= i < |order| ==> order[i] in m
    ensures |r| == SumAlong(m, order, Size) + SumAlong(m, order, Resolvable(all))
    ensures CountKind(r, Mesa) == SumAlong(m, order, Size)
    decreases |order|
  {
    if |order| == 0 then []
    else
      var here := TableLinks(order[0], m[order[0]], all);
      var rest := LinksAlong(m, order[1..], all);
      CountKindAppend(here, rest, Mesa);
      here + rest
  }

  /** Each guest of each walked table gets its table link. */
  lemma {:induction false} LinksAlongHasMesa(m: SeatingMap, order: seq<int>, all: seq<Guest>, i: int, j: int)
    requires forall k :: 0 <= k < |order| ==> order[k] in m
    requires 0 <= i < |order| && 0 <= j < |m[order[i]]|
    ensures MesaLink(order[i], m[order[i]][j]) in LinksAlong(m, order, all)
    decreases |order|
  {
    var here := TableLinks(order[0], m[order[0]], all);
    var rest := LinksAlong(m, order[1..], all);
    assert LinksAlong(m, order, all) == here + rest;
    if i == 0 {
      TableLinksHasMesa(order[0], m[order[0]], all, j);
    } else {
      assert order[1..][i - 1] == order[i];
      LinksAlongHasMesa(m, order[1..], all, i - 1, j);
    }
  }

  /** `l` is the table link of guest `j` of the `i`-th walked table. */
  predicate MesaAt(m: SeatingMap, order: seq<int>, l: Link, i: int, j: int) {
    && 0 <= i < |order| && order[i] in m && 0 <= j < |m[order[i]]|
    && l == MesaLink(order[i], m[order[i]][j])
  }

  /** Every table link along the walk comes from a guest of a walked table. */
  lemma {:induction false} LinksAlongMesaFrom(m: SeatingMap, order: seq<int>, all: seq<Guest>, l: Link)
    requires forall k :: 0 <= k < |order| ==> order[k] in m
    requires l in LinksAlong(m, order, all) && l.kind == Mesa
    ensures exists i, j :: MesaAt(m, order, l, i, j)
    decreases |order|
  {
    var here := TableLinks(order[0], m[order[0]], all);
    var rest := LinksAlong(m, order[1..], all);
    assert LinksAlong(m, order, all) == here + rest;
    if l in here {
      TableLinksMesaFrom(order[0], m[order[0]], all, l);
      var j :| 0 <= j < |m[order[0]]| && l == MesaLink(order[0], m[order[0]][j]);
      assert MesaAt(m, order, l, 0, j);
    } else {
      LinksAlongMesaFrom(m, order[1..], all, l);
      var i, j :| MesaAt(m, order[1..], l, i, j);
      MesaAtShift(m, order, l, i, j);
    }
  }

  /** A table link found further along the walk is found in the whole walk, one table later. */
  lemma MesaAtShift(m: SeatingMap, order: seq<int>, l: Link, i: int, j: int)
    requires |order| > 0 && MesaAt(m, order[1..], l, i, j)
    ensures MesaAt(m, order, l, i + 1, j)
  {
    assert order[1..][i] == order[i + 1];
  }

  /** `l` is a directive link of guest `j` of the `i`-th walked table. */
  predicate DirectiveAt(m: SeatingMap, order: seq<int>, all: seq<Guest>, l: Link, i: int, j: int) {
    && 0 <= i < |order| && order[i] in m && 0 <= j < |m[order[i]]|
    && l in RelationshipLinks(m[order[i]][j].name, m[order[i]][j].relationships, all)
  }

  /** The directive links of every guest of every walked table are in the walk's links. */
  lemma {:induction false} LinksAlongHasDirective(m: SeatingMap, order: seq<int>, all: seq<Guest>, l: Link, i: int, j: int)
    requires forall k :: 0 <= k < |order| ==> order[k] in m
    requires 0 <= i < |order| && 0 <= j < |m[order[i]]|
    requires l in RelationshipLinks(m[order[i]][j].name, m[order[i]][j].relationships, all)
    ensures l in LinksAlong(m, order, all)
    decreases |order|
  {
    var here := TableLinks(order[0], m[order[0]], all);
    var rest := LinksAlong(m, order[1..], all);
    assert LinksAlong(m, order, all) == here + rest;
    if i == 0 {
      TableLinksHasDirective(order[0], m[order[0]], all, j, l);
    } else {
      assert order[1..][i - 1] == order[i];
      LinksAlongHasDirective(m, order[1..], all, l, i - 1, j);
    }
  }

  /** Every link of the walk that is not a table link is a directive link of a guest of a walked table. */
  lemma {:induction false} LinksAlongDirectiveFrom(m: SeatingMap, order: seq<int>, all: seq<Guest>, l: Link)
    requires forall k :: 0 <= k < |order| ==> order[k] in m
    requires l in LinksAlong(m, order, all) && l.kind != Mesa
    ensures exists i, j :: DirectiveAt(m, order, all, l, i, j)
    decreases |order|
  {
    var here := TableLinks(order[0], m[order[0]], all);
    var rest := LinksAlong(m, order[1..], all);
    assert LinksAlong(m, order, all) == here + rest;
    if l in here {
      TableLinksDirectiveFrom(order[0], m[order[0]], all, l);
      var j :| 0 <= j < |m[order[0]]| && l in RelationshipLinks(m[order[0]][j].name, m[order[0]][j].relationships, all);
      assert DirectiveAt(m, order, all, l, 0, j);
    } else {
      LinksAlongDirectiveFrom(m, order[1..], all, l);
      var i, j :| DirectiveAt(m, order[1..], all, l, i, j);
      assert order[1..][i] == order[i + 1];
      assert DirectiveAt(m, order, all, l, i + 1, j);
    }
  }

  /** The guest nodes of table `t`, one per guest record in order. */
  function GuestNodes(t: int, gs: seq<Guest>): (r: seq<Node>)
    ensures |r| == |gs|
    ensures forall i :: 0 <= i < |gs| ==> r[i] == GuestNode(GuestId(gs[i].name), gs[i].name, TableKey(t))
  {
    seq(|gs|, i requires 0 <= i < |gs| => GuestNode(GuestId(gs[i].name), gs[i].name, TableKey(t)))
  }

  function CountTableNodes(ns: seq<Node>): nat
    decreases |ns|
  {
    if |ns| == 0 then 0 else (if ns[0].TableNode? then 1 else 0) + CountTableNodes(ns[1..])
  }

  lemma {:induction false} CountTableNodesAppend(a: seq<Node>, b: seq<Node>)
    ensures CountTableNodes(a + b) == CountTableNodes(a) + CountTableNodes(b)
    decreases |a|
  {
    if |a| > 0 {
      assert (a + b)[1..] == a[1..] + b;
      CountTableNodesAppend(a[1..], b);
    } else {
      assert a + b == b;
    }
  }

  lemma {:induction false} NoTableNodes(ns: seq<Node>)
    requires forall i :: 0 <= i < |ns| ==> ns[i].GuestNode?
    ensures CountTableNodes(ns) == 0
    decreases |ns|
  {
    if |ns| > 0 {
      NoTableNodes(ns[1..]);
    }
  }

  /** The nodes of the tables walked in `order`: for each table its node, then its guests' nodes. */
  function NodesAlong(m: SeatingMap, order: seq<int>): (r: seq<Node>)
    requires forall i :: 0 <= i < |order| ==> order[i] in m
    ensures |r| == |order| + SumAlong(m, order, Size)
    ensures CountTableNodes(r) == |order|
    decreases |order|
  {
    if |order| == 0 then []
    else
      var t := order[0];
      var guests := GuestNodes(t, m[t]);
      var rest := NodesAlong(m, order[1..]);
      var here := [TableNode(TableId(t), TableName(t))] + guests;
      NoTableNodes(guests);
      CountTableNodesAppend([TableNode(TableId(t), TableName(t))], guests);
      CountTableNodesAppend(here, rest);
      here + rest
  }

  /** `n` is the node of table `t` of the map, or the node of one of its guests. */
  predicate ProjectedNode(m: SeatingMap, t: int, n: Node) {
    && t in m
    && (|| n == TableNode(TableId(t), TableName(t))
        || exists g :: g in m[t] && n == GuestNode(GuestId(g.name), g.name, TableKey(t)))
  }

  /** Every node of the walk is the node of a walked table or of one of its guests. */
  lemma {:induction false} NodesAlongFrom(m: SeatingMap, order: seq<int>, n: Node)
    requires forall k :: 0 <= k < |order| ==> order[k] in m
    requires n in NodesAlong(m, order)
    ensures exists i :: 0 <= i < |order| && ProjectedNode(m, order[i], n)
    decreases |order|
  {
    var t := order[0];
    var guests := GuestNodes(t, m[t]);
    var rest := NodesAlong(m, order[1..]);
    assert NodesAlong(m, order) == [TableNode(TableId(t), TableName(t))] + guests + rest;
    if n == TableNode(TableId(t), TableName(t)) {
      assert ProjectedNode(m, order[0], n);
    } else if n in guests {
      var j :| 0 <= j < |guests| && guests[j] == n;
      assert m[t][j] in m[t];
      assert ProjectedNode(m, order[0], n);
    } else {
      NodesAlongFrom(m, order[1..], n);
      var i :| 0 <= i < |order[1..]| && ProjectedNode(m, order[1..][i], n);
      assert order[1..][i] == order[i + 1];
      assert ProjectedNode(m, order[i + 1], n);
    }
  }

  /** Each walked table gets its node, and each of its guests a node naming that table. */
  lemma {:induction false} NodesAlongHas(m: SeatingMap, order: seq<int>, i: int)
    requires forall k :: 0 <= k < |order| ==> order[k] in m
    requires 0 <= i < |order|
    ensures TableNode(TableId(order[i]), TableName(order[i])) in NodesAlong(m, order)
    ensures forall j :: 0 <= j < |m[order[i]]| ==>
      GuestNode(GuestId(m[order[i]][j].name), m[order[i]][j].name, TableKey(order[i])) in NodesAlong(m, order)
    decreases |order|
  {
    var t := order[0];
    var guests := GuestNodes(t, m[t]);
    var rest := NodesAlong(m, order[1..]);
    assert NodesAlong(m, order) == [TableNode(TableId(t), TableName(t))] + guests + rest;
    if i == 0 {
      forall j | 0 <= j < |m[t]|
        ensures GuestNode(GuestId(m[t][j].name), m[t][j].name, TableKey(t)) in NodesAlong(m, order)
      {
        assert guests[j] in guests;
      }
    } else {
      assert order[1..][i - 1] == order[i];
      NodesAlongHas(m, order[1..], i - 1);
    }
  }

  /** The graph handed to the drawing. */
  datatype Graph = Graph(nodes: seq<Node>, links: seq<Link>)

  /** The projection of the seating map, walking the tables in the enumeration `order`;
      directive targets are looked up among all guests of all tables. */
  function Project(m: SeatingMap, order: seq<int>): (g: Graph)
    requires Enumerates(order, m)
    ensures |g.nodes| == |m| + TotalGuests(m)
    ensures CountKind(g.links, Mesa) == TotalGuests(m)
  {
    EnumerationLength(order, m);
    SumAlongEnumeration(m, order, Size);
    Graph(NodesAlong(m, order), LinksAlong(m, order, Flatten(m, order)))
  }

  /** One table node per table and one guest node per guest record: the node count is
      the number of tables plus the number of guests, and there is no other node. */
  lemma ProjectNodes(m: SeatingMap, order: seq<int>)
    requires Enumerates(order, m)
    ensures |Project(m, order).nodes| == |m| + TotalGuests(m)
    ensures CountTableNodes(Project(m, order).nodes) == |m|
    ensures forall t :: t in m ==> TableNode(TableId(t), TableName(t)) in Project(m, order).nodes
    ensures forall t, g :: t in m && g in m[t] ==>
      GuestNode(GuestId(g.name), g.name, TableKey(t)) in Project(m, order).nodes
    ensures forall n :: n in Project(m, order).nodes ==> exists t :: ProjectedNode(m, t, n)
  {
    EnumerationLength(order, m);
    SumAlongEnumeration(m, order, Size);
    forall t | t in m ensures TableNode(TableId(t), TableName(t)) in NodesAlong(m, order) {
      var i :| 0 <= i < |order| && order[i] == t;
      NodesAlongHas(m, order, i);
    }
    forall t, g | t in m && g in m[t] ensures GuestNode(GuestId(g.name), g.name, TableKey(t)) in NodesAlong(m, order) {
      var i :| 0 <= i < |order| && order[i] == t;
      var j :| 0 <= j < |m[t]| && m[t][j] == g;
      NodesAlongHas(m, order, i);
    }
    forall n | n in NodesAlong(m, order) ensures exists t :: ProjectedNode(m, t, n) {
      NodesAlongFrom(m, order, n);
    }
  }

  /** Every guest record yields exactly one table link, from its table's node to its
      own, and there are no other table links. */
  lemma ProjectMesaLinks(m: SeatingMap, order: seq<int>)
    requires Enumerates(order, m)
    ensures CountKind(Project(m, order).links, Mesa) == TotalGuests(m)
    ensures forall t, g :: t in m && g in m[t] ==> MesaLink(t, g) in Project(m, order).links
    ensures forall l :: l in Project(m, order).links && l.kind == Mesa ==>
      exists t, g :: t in m && g in m[t] && l == MesaLink(t, g)
  {
    SumAlongEnumeration(m, order, Size);
    var all := Flatten(m, order);
    var links := LinksAlong(m, order, all);
    forall t, g | t in m && g in m[t] ensures MesaLink(t, g) in links {
      var i :| 0 <= i < |order| && order[i] == t;
      var j :| 0 <= j < |m[t]| && m[t][j] == g;
      LinksAlongHasMesa(m, order, all, i, j);
    }
    forall l | l in links && l.kind == Mesa ensures exists t, g :: t in m && g in m[t] && l == MesaLink(t, g) {
      LinksAlongMesaFrom(m, order, all, l);
      var i, j :| MesaAt(m, order, l, i, j);
      assert m[order[i]][j] in m[order[i]];
    }
  }

  /** `d` is a directive of a guest of the map whose target names a guest of the map. */
  ghost predicate ResolvingDirective(m: SeatingMap, t: int, g: Guest, d: string) {
    t in m && g in m[t] && d in g.relationships && Target(d).Some? && Target(d).value in Names(m)
  }

  /** Every directive whose target names a guest anywhere in the map yields a link from
      its guest to the guest it names, typed by the directive; and every link that is not
      a table link is such a link. */
  lemma ProjectDirectiveLinks(m: SeatingMap, order: seq<int>)
    requires Enumerates(order, m)
    ensures forall t, g, d :: ResolvingDirective(m, t, g, d) ==>
      Link(GuestId(g.name), GuestId(Target(d).value), KindOf(d)) in Project(m, order).links
    ensures forall l :: l in Project(m, order).links && l.kind != Mesa ==>
      exists t, g, d :: (ResolvingDirective(m, t, g, d) &&
        l == Link(GuestId(g.name), GuestId(Target(d).value), KindOf(d)))
  {
    forall t, g, d | ResolvingDirective(m, t, g, d)
      ensures Link(GuestId(g.name), GuestId(Target(d).value), KindOf(d)) in Project(m, order).links
    {
      DirectiveLinkPresent(m, order, t, g, d);
    }
    forall l | l in Project(m, order).links && l.kind != Mesa
      ensures exists t, g, d :: (ResolvingDirective(m, t, g, d) &&
        l == Link(GuestId(g.name), GuestId(Target(d).value), KindOf(d)))
    {
      DirectiveLinkSource(m, order, l);
    }
  }

  lemma DirectiveLinkPresent(m: SeatingMap, order: seq<int>, t: int, g: Guest, d: string)
    requires Enumerates(order, m) && ResolvingDirective(m, t, g, d)
    ensures Link(GuestId(g.name), GuestId(Target(d).value), KindOf(d)) in Project(m, order).links
  {
    var all := Flatten(m, order);
    var i :| 0 <= i < |order| && order[i] == t;
    var j :| 0 <= j < |m[t]| && m[t][j] == g;
    var k :| 0 <= k < |g.relationships| && g.relationships[k] == d;
    NamedInFlatten(m, order, Target(d).value);
    RelationshipLinksHas(g.name, g.relationships, all, k);
    var l := Link(GuestId(g.name), GuestId(Target(d).value), KindOf(d));
    LinksAlongHasDirective(m, order, all, l, i, j);
  }

  lemma DirectiveLinkSource(m: SeatingMap, order: seq<int>, l: Link)
    requires Enumerates(order, m)
    requires l in Project(m, order).links && l.kind != Mesa
    ensures exists t, g, d :: (ResolvingDirective(m, t, g, d) &&
      l == Link(GuestId(g.name), GuestId(Target(d).value), KindOf(d)))
  {
    var all := Flatten(m, order);
    LinksAlongDirectiveFrom(m, order, all, l);
    var i, j :| DirectiveAt(m, order, all, l, i, j);
    var t := order[i];
    var g := m[t][j];
    RelationshipLinksFrom(g.name, g.relationships, all, l);
    var k :| 0 <= k < |g.relationships| && LinkOf(g.name, g.relationships[k], all, l);
    var d := g.relationships[k];
    NamedInFlatten(m, order, Target(d).value);
    assert ResolvingDirective(m, t, g, d);
  }

  /** The names of the guests of a list are those of the map it flattens. */
  lemma NamedInFlatten(m: SeatingMap, order: seq<int>, x: string)
    requires Enumerates(order, m)
    ensures Named(Flatten(m, order), x) <==> x in Names(m)
  {
    FlattenEnumeration(m, order);
    if x in Names(m) {
      var t, g :| t in m && g in m[t] && g.name == x;
      assert g in Flatten(m, order);
    }
  }

  /** The link count is the number of guests plus the number of directives whose
      target names a guest somewhere in the map. */
  lemma ProjectLinkCount(m: SeatingMap, order: seq<int>)
    requires Enumerates(order, m)
    ensures |Project(m, order).links| == TotalGuests(m) + SumOver(m, Resolvable(Flatten(m, order)))
  {
    SumAlongEnumeration(m, order, Size);
    SumAlongEnumeration(m, order, Resolvable(Flatten(m, order)));
  }

  /** Each directive gives one link exactly when its target is the name of a guest
      anywhere in the map, typed by the directive and pointing at that guest, and
      none otherwise. */
  lemma DirectiveLinkExists(m: SeatingMap, order: seq<int>, from: string, d: string)
    requires Enumerates(order, m)
    ensures var r := DirectiveLink(from, d, Flatten(m, order));
      && (r.Some? <==> Target(d).Some? && Target(d).value in Names(m))
      && (r.Some? ==> r.value == Link(GuestId(from), GuestId(Target(d).value), KindOf(d)))
  {
    if Target(d).Some? {
      NamedInFlatten(m, order, Target(d).value);
    }
  }

  /** The target of a directive the grouping wrote is the cell value, as long as that
      value holds no `": "` of its own. */
  lemma TargetOfDirective(prefix: string, v: string)
    requires prefix == "Junto com: " || prefix == "Separado de: "
    requires !Contains(v, ": ")
    ensures Target(prefix + v) == Some(v)
  {
    var head := prefix[..|prefix| - 2];
    assert prefix == head + ": ";
    assert !Contains(head, ": ") by {
      assert ':' !in head;
      forall k | 0 <= k && k + 2 <= |head| ensures !OccursAt(head, ": ", k) {
        assert head[k..k + 2][0] == head[k];
      }
    }
    SplitTwo(head, v);
    assert prefix + v == head + ": " + v;
  }

  /** Splitting `a + ": " + b` on `": "` gives `a` and `b` when neither holds the separator
      and `a` does not end in a colon. */
  lemma SplitTwo(a: string, b: string)
    requires !Contains(a, ": ") && !Contains(b, ": ")
    requires |a| == 0 || a[|a| - 1] != ':'
    ensures Split(a + ": " + b, ": ") == [a, b]
  {
    var s := a + ": " + b;
    FirstSeparator(a, b);
    assert s[..|a|] == a;
    assert s[|a| + 2..] == b;
    assert FindFirst(b, ": ").None?;
    assert Split(b, ": ") == [b];
  }

  /** The first `": "` of `a + ": " + b` is the one between them. */
  lemma FirstSeparator(a: string, b: string)
    requires !Contains(a, ": ")
    requires |a| == 0 || a[|a| - 1] != ':'
    ensures FindFirst(a + ": " + b, ": ") == Some(|a|)
  {
    var s := a + ": " + b;
    var n := |a|;
    assert OccursAt(s, ": ", n) by {
      assert s[n..n + 2] == ": ";
    }
    forall k | 0 <= k < n ensures !OccursAt(s, ": ", k) {
      if k + 2 <= n {
        assert s[k..k + 2] == a[k..k + 2];
        assert !OccursAt(a, ": ", k);
      } else if k + 2 <= |s| {
        assert s[k..k + 2][0] == a[n - 1];
        assert ": "[0] == ':';
      }
    }
  }

  /** An Apart directive whose value mentions "Junto com" is drawn as a together link,
      since the kind is read from the whole directive text. */
  lemma ApartReadAsTogether()
    ensures KindOf("Separado de: Junto com Ana") == Together
  {
    assert OccursAt("Separado de: Junto com Ana", "Junto com", 13) by {
      assert "Separado de: Junto com Ana"[13..22] == "Junto com";
    }
  }

  /** The force-layout link distance for a `type` string. */
  function LinkDistance(typeName: string): int {
    if typeName == "together" then 50 else if typeName == "apart" then 300 else 100
  }

  function Stroke(typeName: string): string {
    if typeName == "together" then "cyan" else if typeName == "apart" then "red" else "black"
  }

  function DashArray(typeName: string): string {
    if typeName == "apart" then "8, 4" else "none"
  }

  function NodeFill(group: string): string {
    if group == "mesa" then "blue" else "#ddd"
  }

  /** Together links are short, apart links long, and table links in between. */
  lemma LinkDistanceStyling(k: LinkType)
    ensures LinkDistance(TypeName(k)) == match k case Together => 50 case Apart => 300 case Mesa => 100
  {
  }

  /** Together links are cyan, apart links red and table links black; apart links
      are the only dashed ones. */
  lemma StrokeStyling(k: LinkType)
    ensures Stroke(TypeName(k)) == match k case Together => "cyan" case Apart => "red" case Mesa => "black"
    ensures DashArray(TypeName(k)) != "none" <==> k == Apart
  {
  }

  /** Table nodes are blue and guest nodes grey. */
  lemma NodeFillStyling(n: Node)
    ensures NodeFill(GroupName(n)) == if n.TableNode? then "blue" else "#ddd"
  {
  }

}

=== FILE: seating.dfy ===
/**
 The seating map: table number to the ordered guests seated there. JavaScript
 object key order is not modelled; where the source walks the tables in order,
 the walk is given as an explicit enumeration of the keys.
 */
module Seating {

  /** A guest record: the trimmed name and the relationship directives in column order. */
  datatype Guest = Guest(name: string, relationships: seq<string>)

  type SeatingMap = map<int, seq<Guest>>

  /** Some key of a non-empty map, fixed once so that definitions and proofs agree on it. */
  ghost function PickKey(m: SeatingMap): (k: int)
    requires |m| > 0
    ensures k in m
  {
    HasKey(m);
    var k :| k in m; k
  }

  lemma HasKey(m: SeatingMap)
    requires |m| > 0
    ensures exists k :: k in m
  {
    assert |m.Keys| == |m|;
    if forall k :: k !in m.Keys {
      assert false;
    }
  }

  /** The sum of `f` over the tables of `m`, independent of any key order. */
  ghost function SumOver(m: SeatingMap, f: seq<Guest> -> nat): nat
    decreases |m|
  {
    if |m| == 0 then 0
    else
      var k := PickKey(m);
      f(m[k]) + SumOver(m - {k}, f)
  }

  function Size(gs: seq<Guest>): nat {
    |gs|
  }

  /** Two seating maps with the same tables and the same guests at each are equal. */
  lemma MapsEqual(m: SeatingMap, m': SeatingMap)
    requires forall u :: u in m <==> u in m'
    requires forall u :: u in m ==> m[u] == m'[u]
    ensures m == m'
  {
    forall u ensures u in m.Keys <==> u in m'.Keys {
      assert u in m <==> u in m';
    }
    assert m.Keys == m'.Keys;
    forall u | u in m ensures m[u] == m'[u] {
      assert m[u] == m'[u];
    }
  }

  /** The number of guest records across all tables. */
  ghost function TotalGuests(m: SeatingMap): nat {
    SumOver(m, Size)
  }

  /** Any table may be taken out first: the sum does not depend on which key `PickKey` chose. */
  lemma {:induction false} SumOverRemove(m: SeatingMap, f: seq<Guest> -> nat, k: int)
    requires k in m
    ensures SumOver(m, f) == f(m[k]) + SumOver(m - {k}, f)
    decreases |m|
  {
    var j := PickKey(m);
    if j != k {
      assert |m - {j}| == |m| - 1;
      assert |m - {k}| == |m| - 1;
      SumOverRemove(m - {j}, f, k);
      SumOverRemove(m - {k}, f, j);
      assert m - {j} - {k} == m - {k} - {j};
    }
  }

  /** Adding an empty table leaves the total unchanged. */
  lemma SumOverNewEmpty(m: SeatingMap, f: seq<Guest> -> nat, t: int)
    requires t !in m && f([]) == 0
    ensures SumOver(m[t := []], f) == SumOver(m, f)
  {
    SumOverRemove(m[t := []], f, t);
    assert m[t := []] - {t} == m;
  }

  /** Replacing one table's list changes the total by the difference of `f`. */
  lemma SumOverReplace(m: SeatingMap, f: seq<Guest> -> nat, t: int, gs: seq<Guest>)
    requires t in m
    ensures SumOver(m[t := gs], f) + f(m[t]) == SumOver(m, f) + f(gs)
  {
    SumOverRemove(m[t := gs], f, t);
    SumOverRemove(m, f, t);
    assert m[t := gs] - {t} == m - {t};
  }

  /** `order` lists every key of `m` exactly once: a model of `Object.entries` order. */
  predicate Enumerates(order: seq<int>, m: SeatingMap) {
    && (forall i :: 0 <= i < |order| ==> order[i] in m)
    && (forall t :: t in m ==> t in order)
    && (forall i, j :: 0 <= i < j < |order| ==> order[i] != order[j])
  }

  /** The sum of `f` over the tables, walked in the given order. */
  ghost function SumAlong(m: SeatingMap, order: seq<int>, f: seq<Guest> -> nat): nat
    requires forall i :: 0 <= i < |order| ==> order[i] in m
    decreases |order|
  {
    if |order| == 0 then 0 else f(m[order[0]]) + SumAlong(m, order[1..], f)
  }

  /** Walking the tables in any enumeration order sums to the order-free total. */
  lemma {:induction false} SumAlongEnumeration(m: SeatingMap, order: seq<int>, f: seq<Guest> -> nat)
    requires Enumerates(order, m)
    ensures SumAlong(m, order, f) == SumOver(m, f)
    decreases |order|
  {
    if |order| == 0 {
      assert forall t :: t in m ==> t in order;
      assert m.Keys == {};
    } else {
      var k := order[0];
      var rest := m - {k};
      EnumeratesTail(order, m);
      SumAlongEnumeration(rest, order[1..], f);
      SumAlongSame(m, rest, order[1..], f);
      SumOverRemove(m, f, k);
    }
  }

  /** Dropping the first table of an enumeration enumerates the rest of the map. */
  lemma EnumeratesTail(order: seq<int>, m: SeatingMap)
    requires Enumerates(order, m) && |order| > 0
    ensures Enumerates(order[1..], m - {order[0]})
  {
    var rest := m - {order[0]};
    forall t | t in rest ensures t in order[1..] {
      var i :| 0 <= i < |order| && order[i] == t;
      assert i != 0;
      assert order[1..][i - 1] == t;
    }
  }

  /** The walk only looks at the tables it visits. */
  lemma {:induction false} SumAlongSame(m: SeatingMap, m': SeatingMap, order: seq<int>, f: seq<Guest> -> nat)
    requires forall i :: 0 <= i < |order| ==> order[i] in m && order[i] in m' && m[order[i]] == m'[order[i]]
    ensures SumAlong(m, order, f) == SumAlong(m', order, f)
    decreases |order|
  {
    if |order| > 0 {
      SumAlongSame(m, m', order[1..], f);
    }
  }

  /** An enumeration has exactly as many entries as the map has tables. */
  lemma EnumerationLength(order: seq<int>, m: SeatingMap)
    requires Enumerates(order, m)
    ensures |order| == |m|
  {
    DistinctCardinality(order);
    var s := set i | 0 <= i < |order| :: order[i];
    forall t | t in m ensures t in s {
      var i :| 0 <= i < |order| && order[i] == t;
    }
    assert m.Keys == s;
  }

  lemma {:induction false} DistinctCardinality(order: seq<int>)
    requires forall i, j :: 0 <= i < j < |order| ==> order[i] != order[j]
    ensures |set i | 0 <= i < |order| :: order[i]| == |order|
    decreases |order|
  {
    if |order| > 0 {
      var tail := order[1..];
      DistinctCardinality(tail);
      var s := set i | 0 <= i < |order| :: order[i];
      var st := set i | 0 <= i < |tail| :: tail[i];
      assert s == st + {order[0]} by {
        forall x | x in s ensures x in st + {order[0]} {
          var i :| 0 <= i < |order| && order[i] == x;
          if i > 0 {
            assert tail[i - 1] == x;
          }
        }
      }
      assert order[0] !in st;
    }
  }

  /** `Object.values(seating).flat()`: every guest record, table by table in the given order. */
  function Flatten(m: SeatingMap, order: seq<int>): (r: seq<Guest>)
    requires forall i :: 0 <= i < |order| ==> order[i] in m
    ensures |r| == SumAlong(m, order, Size)
    ensures forall g :: g in r <==> exists i :: 0 <= i < |order| && g in m[order[i]]
    decreases |order|
  {
    if |order| == 0 then []
    else
      var rest := Flatten(m, order[1..]);
      assert forall g :: ((exists i :: 0 <= i < |order| && g in m[order[i]])
        <==> (g in m[order[0]] || exists i :: 0 <= i < |order[1..]| && g in m[order[1..][i]])) by {
        forall g | exists i :: 0 <= i < |order| && g in m[order[i]]
          ensures g in m[order[0]] || exists i :: 0 <= i < |order[1..]| && g in m[order[1..][i]]
        {
          var i :| 0 <= i < |order| && g in m[order[i]];
          if i > 0 {
            assert order[1..][i - 1] == order[i];
          }
        }
      }
      m[order[0]] + rest
  }

  /** The names of all guests at all tables. */
  ghost function Names(m: SeatingMap): set<string> {
    set t, g | t in m && g in m[t] :: g.name
  }

  /** Under an enumeration, the flattened list holds exactly the guests of the map
      and has `TotalGuests(m)` entries. */
  lemma FlattenEnumeration(m: SeatingMap, order: seq<int>)
    requires Enumerates(order, m)
    ensures |Flatten(m, order)| == TotalGuests(m)
    ensures forall g :: g in Flatten(m, order) <==> exists t :: t in m && g in m[t]
  {
    SumAlongEnumeration(m, order, Size);
    forall g | exists t :: t in m && g in m[t]
      ensures g in Flatten(m, order)
    {
      var t :| t in m && g in m[t];
      var i :| 0 <= i < |order| && order[i] == t;
    }
  }

}
